=== FILE: README.md ===
# convirt core in Dafny

This project models the core of convirt, a layer that presents container
workloads through the libvirt domain API. It has two parts:

- **The runner** (`convirt/runner.py`). A `Runner` starts a transient
  systemd unit through `systemd-run` and stops it through `systemctl stop`.
  Either command can go through `sudo`. The runner caches whether its last
  successful command was a start. `get_all` lists the units named
  `convirt-*` and turns each unit name back into the VM identifier it
  embeds.
- **The domain** (`convirt/domain.py`). A `Domain` is built from a domain
  descriptor: its UUID and a container tag under `<metadata>`. It chooses a
  runtime backend by that tag and drives the runtime through fixed call
  sequences:
  - create: clear cache, setup, configure, save, start;
  - recover: resync;
  - destroy: stop, teardown, clear cache;
  - reset: stop, start.

  It also keeps the process-wide registry of domains up to date.

Every model is pure and functional. External effects become parameters:

- An `Executor` says whether a command line exits with status 0.
- A `Lister` gives the text a listing command prints, or nothing when the
  command fails.
- A `Factory` gives the runtime for a backend tag, or nothing for an unknown
  tag.
- An `Oracle` decides, from the trace of earlier calls, whether the next
  runtime or cache call raises, and which error it raises.

Python exceptions become `Result`/`Option` values carrying an `Errors.Error`.
A generator becomes a `Listing`: the identifiers yielded, followed by the
exception that ended the iteration, if any.

Modules:

- `Wrappers` (`wrappers.dfy`): `Option` and `Result`.
- `Errors` (`errors.dfy`): the exception kinds.
- `PyStr` (`pystr.dfy`): the Python 2 string operations the core relies
  on:
  - `strip`;
  - `splitlines`;
  - `split()[0]`;
  - `replace(pat, repl, 1)`;
  - `os.path.splitext`.
- `Numerals` (`numerals.dfy`): `'%i'` and fixed-width hexadecimal, each
  with its parser.
- `Uuids` (`uuids.dfy`): the canonical string form of a 128-bit UUID.
- `Runner` (`runner.dfy`): all of `convirt/runner.py`.
- `Doms` (`doms.dfy`): the registry operations the domain uses.
- `Domain` (`domain.dfy`): all of `convirt/domain.py`.

Some behaviour of the code that the model reproduces on purpose:

- In the code, only `destroyFlags` converts errors to the generic libvirt
  error, and it converts only OperationFailed and KeyError. `create`,
  `recover`, `reset` and the construction of a domain let every error
  through unchanged.
- A container element that is present but has no text raises
  AttributeError (from `None.strip()`), not ConfigError.
- The parser of the listing does not check the `convirt-` prefix; only
  the `convirt-*` pattern that `get_all` gives to systemctl filters by it.
  The parser removes the first occurrence of `convirt-` wherever that
  occurs in the unit's stem. Unit
  names are split the way `os.path.splitext` splits them.
- A line of the listing made only of whitespace raises IndexError. It is
  not skipped.

## Model

| member | source | states |
|---|---|---|
| `Runner.New` | convirt/runner.py:46-53 | a fresh runner keeps its unit name and configuration and is not running |
| `Runner.Call` | convirt/runner.py:85-92 | the command runs behind `sudo` exactly when `use_sudo` is set; the call succeeds iff the executor reports exit status 0, and otherwise raises OperationFailed |
| `Runner.Stop` | convirt/runner.py:55-62 | issues `[sudo] systemctl stop <unit>`; on success the runner is not running, whatever it was before; on failure it raises OperationFailed and the runner is unchanged |
| `Runner.StartCommand` | convirt/runner.py:64-77 | the `systemd-run` command line has, in order: the tool, the quoted unit, the slice, three accounting properties, `--uid=` / `--gid=` only when configured, and finally the caller's arguments unchanged |
| `Runner.Start` | convirt/runner.py:64-79 | issues `[sudo]` + the start command; on success the runner is running; on failure it raises OperationFailed and the runner is unchanged |
| `Runner.StartCommandRoundTrip` | convirt/runner.py:64-77 | when the caller's arguments do not open with an identity option, the command line reads back as exactly the tool, unit, slice, uid, gid and arguments it was built from |
| `Runner.StartCommandAmbiguous` | convirt/runner.py:73-77 | without that condition the command line is ambiguous: no uid with arguments `--uid=0` gives the same words as uid 0 with no arguments |
| `Runner.StartStopSettle` | convirt/runner.py:55-79 | a successful stop after a start leaves the runner not running; a successful start after a stop leaves it running; a failed start keeps the cached flag |
| `Runner.Stats` | convirt/runner.py:81-83 | statistics are always empty |
| `Runner.SplitextService` | convirt/runner.py:109-110 | `splitext` yields the extension `.service` exactly for units that end in `.service` and whose last path component before it is not only dots; the root is then the unit minus `.service` |
| `Runner.VmUuidFromUnit` | convirt/runner.py:108-112 | a unit is accepted iff it is a service unit in that sense; every other unit raises ValueError |
| `Runner.VmUuidOfStem` | convirt/runner.py:108-112 | a service unit whose stem has no `/` and does not start with `.` yields its stem with the first `convirt-` deleted |
| `Runner.VmUuidRoundTrip` | convirt/runner.py:108-112 | the unit name `convirt-<id>.service` gives back `<id>` |
| `Runner.VmUuidRejectsOtherUnits` | convirt/runner.py:110-111 | a unit not ending in `.service` raises ValueError |
| `Runner.VmUuidWithoutPrefix` | convirt/runner.py:112 | the prefix is not checked: `foobar.service` gives `foobar` |
| `Runner.VmUuidPrefixInside` | convirt/runner.py:112 | the first `convirt-` is deleted even inside the stem: `foo-convirt-x.service` gives `foo-x` |
| `Runner.LineId` | convirt/runner.py:116-123 | a line raises IndexError iff it is non-empty and all whitespace |
| `Runner.ParseLines` | convirt/runner.py:115-123 | the listing yields at most one id per line; it ends without error iff no line is non-empty and all whitespace; the error that ends it is IndexError |
| `Runner.ParseLinesAppend` | convirt/runner.py:115-123 | lines are handled independently and in order: parsing two blocks gives the first block's ids then the second's, unless the first block raised |
| `Runner.LineSkipped` | convirt/runner.py:116-123 | an empty line, or a line whose first token is not a service unit, yields nothing and raises nothing |
| `Runner.ParseOnlySkipped` | tests/test_runtime.py:78-93 | a listing of only such lines (mounts, devices, sockets, slices) yields nothing |
| `Runner.LineOfUnit` | convirt/runner.py:116-121 | a line holding `convirt-<id>.service` after any indentation, followed by any further columns, yields exactly `<id>` |
| `Runner.ParseForeignService` | tests/test_runtime.py:63-69 | output of an empty line and then a `foobar.service` line with any columns yields `["foobar"]` |
| `Runner.ParseEmptyOutput` | tests/test_runtime.py:71-76 | output of a single empty line yields nothing |
| `Runner.ParseSingleService` | convirt/runner.py:115-123 | output of an empty line and then one convirt unit line yields that unit's VM id |
| `Runner.ParseListUnits` | convirt/runner.py:115-123 | parsing the output yields at most one id per character; it raises iff some line of the output is non-empty and all whitespace, and then with IndexError |
| `Runner.ParseJoinedLines` | convirt/runner.py:115-123 | output made of `\n`-terminated lines is parsed exactly as those lines are |
| `Runner.ListUnitsCommand` | convirt/runner.py:96-102 | the listing command is `systemctl list-units --no-pager --no-legend` with the `convirt-*` pattern last |
| `Runner.GetAll` | convirt/runner.py:95-105 | a failing listing command raises CalledProcessError; otherwise `get_all` yields what the parser yields for the command's output |
| `Runner.GetAllSingleService` | tests/test_runtime.py:48-60 | when the listing shows one convirt unit, `get_all` yields exactly its VM id |
| `PyStr.Strip` | convirt/domain.py:169 | the result has no leading or trailing whitespace, and it is empty iff the input is all whitespace |
| `PyStr.StripPadded` | convirt/domain.py:169 | stripping whitespace padding gives back the padded text |
| `PyStr.SplitLines` | convirt/runner.py:116 | no line of the result holds a line break, and there are no more lines than characters |
| `PyStr.SplitJoinLines` | convirt/runner.py:116 | `splitlines` gives back lines that were joined with `\n` terminators |
| `PyStr.FirstToken` | convirt/runner.py:119 | there is no first token iff the line is all whitespace; a first token is non-empty, has no whitespace, and starts the line once leading whitespace is removed |
| `PyStr.FirstTokenOf` | convirt/runner.py:119 | after leading whitespace, the first token is the whole run of non-whitespace, whatever columns follow |
| `PyStr.ReplaceFirst` | convirt/runner.py:112 | the first occurrence of the pattern, wherever it is, is replaced and the text around it kept; a text in which the pattern does not occur is returned unchanged |
| `PyStr.ReplaceLeadingPrefix` | convirt/runner.py:112 | deleting the first occurrence of a leading prefix gives back what follows it |
| `PyStr.Splitext` | convirt/runner.py:109 | root and extension concatenate to the input; an extension is empty or starts with `.` and has no further `.` and no `/` |
| `Numerals.IntToDecimal` | convirt/runner.py:74-76 | `'%i'` text is `-` exactly for negative integers, followed by a non-empty run of decimal digits with no leading zero (zero prints as `0`) |
| `Numerals.IntRoundTrip` | convirt/runner.py:73-76 | `'%i'` loses nothing: the decimal text of any integer reads back as that integer |
| `Numerals.ParseFixedDigits` | convirt/domain.py:104-105 | a fixed-width rendering reads back as the number whenever the number fits the width |
| `Uuids.Format` | convirt/domain.py:104-105 | the UUID string has 36 characters with dashes at positions 8, 13, 18 and 23, and its 32 hexadecimal digits spell the identifier |
| `Uuids.ParseFormat` | convirt/domain.py:104-105 | the UUID string reads back as the same identifier |
| `Uuids.FormatInjective` | convirt/domain.py:104-105 | distinct identifiers print differently |
| `Doms.Add` | convirt/domain.py:47 | registering maps the key to the domain and keeps every other entry |
| `Doms.Remove` | convirt/domain.py:82 | removal fails with KeyError iff the key is absent; otherwise it drops only that key |
| `Doms.RemoveUndoesAdd` | convirt/domain.py:43-89 | removing a freshly added key gives back the registry as it was |
| `Doms.GetAll` | tests/domain_test.py:119-123 | the snapshot holds exactly the registered domains |
| `Doms.GetAllSingleton` | tests/domain_test.py:113-123 | a registry with one entry lists exactly that domain, and an empty one lists none |
| `Domain.FindContainerType` | convirt/domain.py:163-169 | a missing element raises ConfigError; an element without text raises AttributeError; otherwise the tag has no surrounding whitespace |
| `Domain.ContainerTypePadded` | convirt/domain.py:169 | the tag is the element's text between any surrounding whitespace |
| `Domain.Construct` | convirt/domain.py:57-73 | construction fails exactly when the tag is missing (ConfigError), has no text (AttributeError), or names no backend (ConfigError, never anything else); a built domain keeps the descriptor text and UUID, and its runtime is the one the factory gives for the tag |
| `Domain.UUIDString` | convirt/domain.py:104-105 | the string is in canonical dashed form and reads back as the domain's identifier |
| `Domain.ID` | convirt/domain.py:101-102 | the integer identifier is below 2^128 and equals the number the UUID string spells |
| `Domain.KeysIdentify` | convirt/domain.py:101-105 | two domains share a registry key only when they share an identifier |
| `Domain.XMLDescEchoesDescriptor` | convirt/domain.py:107-109 | `XMLDesc` returns the descriptor text the domain was built from, for every flags value |
| `Domain.ControlInfo` | convirt/domain.py:111-113 | control info is a 3-tuple whose state is `VIR_DOMAIN_CONTROL_OK` |
| `Domain.Info` | convirt/domain.py:121-123 | info has five entries, the first `VIR_DOMAIN_RUNNING` |
| `Domain.Vcpus` | convirt/domain.py:125-127 | vcpus is two empty lists |
| `Domain.GetAttr` | convirt/domain.py:155-157 | lookup falls back to the fake method exactly for names outside the domain's own attributes (class body, class dictionary, instance fields) |
| `Domain.SupportedNeverFaked` | convirt/domain.py:43-127 | no operation of the supported surface (create, recover, destroy, destroyFlags, reset, ID, UUIDString, XMLDesc, controlInfo, info, vcpus) resolves to the fake method |
| `Domain.CallFakeMethod` | convirt/domain.py:159-160 | the fake method raises the generic libvirt error for any positional arguments, and TypeError when keyword arguments are passed |
| `Domain.UnsupportedOperationFails` | convirt/domain.py:155-160 | an operation the domain does not define, called with positional arguments, fails with the generic libvirt error |
| `Domain.MigrateUnsupported` | tests/domain_test.py:102-108 | `migrate` resolves to the fake method |
| `Domain.RunCalls` | convirt/domain.py:129-153 | calls run in order until the first one raises: every call before it returned, and no call after it is made; the run succeeds iff each call returns given the ones before it; the trace records every call made and whether it returned; the error is the raising call's |
| `Domain.RunFollows` | convirt/domain.py:129-153 | a run makes only a prefix of its calls, in order |
| `Domain.Create` | convirt/domain.py:43-48 | construction errors leave the world untouched; otherwise the startup calls are made in order up to and including the first that raises, and no further; the constructed domain is registered under its UUID string only when all five return; a failing call's own error is returned and the registry is unchanged |
| `Domain.Recover` | convirt/domain.py:50-55 | construction errors leave the world untouched; otherwise only a resync is made, and it is recorded as returned or raised exactly as it went; the constructed domain, bound to the given runtime identifier, is registered iff the resync returns; a failing resync's own error is returned and the registry is unchanged |
| `Domain.Surfaced` | convirt/domain.py:80-86 | OperationFailed and KeyError become the generic libvirt error; any other error is unchanged |
| `Domain.DestroyFlags` | convirt/domain.py:75-86 | stop, teardown and cache clear run first, up to and including the first that raises; destroy succeeds iff all return and the domain is registered, and only then is its entry removed; an unregistered domain fails with the generic error after the whole shutdown has run; a shutdown error is converted as `Surfaced` says |
| `Domain.Destroy` | convirt/domain.py:88-89 | `destroy` equals `destroyFlags` with any flags |
| `Domain.Reset` | convirt/domain.py:91-96 | only stop then start are made, and no start after a stop that raised; the registry is untouched; reset succeeds iff both return, and otherwise returns the failing call's own error |
| `Domain.DestroyStopRaises` | convirt/domain.py:147-153 | a stop that raises ends `destroyFlags`: no teardown or cache clear is made, the registry is unchanged, and the stop's error is surfaced |
| `Domain.ResetStopRaises` | convirt/domain.py:91-96 | a stop that raises ends `reset`: no start is made, and the stop's error propagates |
| `Domain.FlagsIgnored` | convirt/domain.py:75-109 | `destroyFlags`, `reset` and `XMLDesc` do not depend on their flags |
| `Domain.CreateLeavesRunning` | convirt/domain.py:129-140 | after a successful create, the last start/stop of the domain's runtime that returned was a start |
| `Domain.ResetLeavesRunning` | convirt/domain.py:91-96 | after a successful reset, the last start/stop that returned was a start |
| `Domain.DestroyLeavesStopped` | convirt/domain.py:147-153 | after a successful destroy, the last start/stop that returned was a stop |
| `Domain.StartupConfiguresBeforeStart` | convirt/domain.py:129-140 | the startup sequence starts the runtime only after configuring it with the descriptor, and that configure returned |
| `Domain.CreateConfiguresBeforeStart` | convirt/domain.py:43-48 | a start made by create comes after a configure with the descriptor that returned |
| `Domain.ResetOnlyStopsAndStarts` | tests/domain_test.py:85-90 | reset's first call is a stop and any later call is a start |
| `Domain.DestroyUnregistered` | tests/domain_test.py:125-141 | destroying an unregistered domain whose shutdown succeeds fails with the generic libvirt error, after the full shutdown, and leaves the registry as it was |
| `Domain.DestroyShutdownFails` | convirt/domain.py:80-86 | when a shutdown call raises, the registry is unchanged; OperationFailed and KeyError surface as the generic error, and anything else surfaces as itself |
| `Domain.CreateThenDestroy` | convirt/domain.py:43-89 | destroy after create restores the registry, when the key was free and the shutdown succeeds |
| `Domain.RecoverKeepsCommanded` | convirt/domain.py:142-145 | recover neither starts nor stops any runtime: the last returned start or stop is the same before and after |
| `Domain.RecoverThenDestroy` | convirt/domain.py:50-89 | destroy after recover restores the registry, when the key was free and the shutdown succeeds |
| `Domain.RegistrationScenario` | tests/domain_test.py:113-123 | on an empty registry, after create the registry lists exactly the created domain; after destroy it lists none |

## Left out

- Process execution, `sudo` and executable lookup (`command.Path`). The
  executor and lister are parameters, and the tool paths are opaque strings
  in `Tools`. The `NotFound` error of a missing executable is not modelled.
- `config.current()`, the fallback when no configuration is passed. A
  `Runner` always receives its configuration.
- Runner.Call: the `rc != 0` branch is dead code, because `check_call`
  already raises on a nonzero status. Both cases are modelled as a single
  OperationFailed. CalledProcessError is not told apart from it.
- `start(*args)` followed by `cmd.extend(*args)` works only when exactly one
  iterable is passed. It is modelled as one sequence of arguments.
- XML parsing (`ET.fromstring`) and `uuid.UUID(...)` on the `<uuid>` text.
  A `Descriptor` holds the parsed UUID and the container element. Malformed
  XML and a missing or malformed `<uuid>` are not modelled.
- The runtime backends (`runtime.create` and the runtime classes) and the
  XML cache (`xmlfile.XMLFile`). They are an opaque `Factory` and `Oracle`.
  What `resync` queries, and the XML file's path and contents, are not part
  of this model.
- `runtimeUUIDString`. It returns the runtime's own identifier, which lives
  inside the runtime backend and is not part of this model.
- Logging calls and `events.Handler`. They have no effect on results.
- Doms.GetAll: the snapshot is a set, so the order of `doms.get_all()` is
  not modelled. `doms.py` is not part of this model, and `add` is taken to
  overwrite an existing key.
- Domain.ControlInfo, Domain.Info, Domain.Vcpus: libvirt's constants are
  given their public values (`VIR_DOMAIN_CONTROL_OK` = 0,
  `VIR_DOMAIN_RUNNING` = 1). The bindings are not part of this model.
- Domain.GetAttr: the set of names that ordinary lookup finds is written
  out by hand from the class body, a new-style class's own dictionary and
  `__init__`. Attributes inherited from `object` (`__class__`, `__repr__`,
  ...) are not listed, so lookup of those names is not modelled.
- Runner.ParseLines: the contract bounds the ids and characterises the
  error. Which ids are yielded is stated by `ParseLinesAppend` and the
  per-line lemmas, not by `ParseLines` itself.
- Character semantics are those of Python 2 byte strings. The whitespace
  characters are space, `\t`, `\n`, `\r`, `\v` and `\f`; line breaks are
  `\n`, `\r` and `\r\n`. There is no Unicode.

=== FILE: domain.dfy ===
/** The lifecycle orchestrator of convirt/domain.py: a `Domain` presents one
    container workload through the libvirt domain API. It owns a runtime
    built by a backend factory from the descriptor's container tag, drives
    it through fixed call sequences, and keeps the process-wide registry
    `doms` up to date.

    The runtime and the XML cache are not modelled beyond their calls:
    every call a lifecycle operation makes is appended to a trace together
    with whether it returned, and an `Oracle` decides, from the trace so far
    and the request, whether a call raises and what. The registry and the
    trace together form the `World` each operation maps to a new one. */
module Domain {
  import opened Wrappers
  import opened Errors
  import PyStr
  import Uuids
  import Doms

  // ------------------------------------------------------------ descriptor

  /** The `{METADATA_CONTAINERS_URI}container` element under `<metadata>`:
      missing, present without text, or present with text. */
  datatype Metadata = Absent | NoText | Text(raw: string)

  /** A domain descriptor after XML and UUID parsing: the XML text as given,
      the value of its `<uuid>` element and its container element. */
  datatype Descriptor = Descriptor(xml: string, uuid: Uuids.Uuid, container: Metadata)

  /** An opaque runtime instance, as a backend factory returns it. */
  datatype Handle = Handle(id: nat)

  /** `runtime.create`: the runtime of the backend a tag names, `None` when
      no backend goes by that tag. */
  type Factory = string -> Option<Handle>

  /** One domain: the descriptor text, its identifier, the backend tag, the
      runtime built for it and the runtime identifier it was recovered
      under, if any. */
  datatype Domain = Domain(
    xml: string, vmUuid: Uuids.Uuid, backend: string, runtime: Handle, rtUuid: Option<string>)

  /** `_find_container_type`: the container element's text, stripped of
      surrounding whitespace. */
  function FindContainerType(m: Metadata): (r: Result<string, Error>)
    ensures r == Failure(ConfigError) <==> m.Absent?
    ensures r == Failure(AttributeError) <==> m.NoText?
    ensures r.Success? ==> PyStr.Trimmed(r.value)
  {
    match m
    case Absent => Failure(ConfigError)
    case NoText => Failure(AttributeError)
    case Text(raw) => Success(PyStr.Strip(raw))
  }

  /** The tag is the element's text between any surrounding whitespace. */
  lemma ContainerTypePadded(lead: string, tag: string, trail: string)
    requires PyStr.AllSpace(lead) && PyStr.AllSpace(trail)
    requires tag != [] && !PyStr.IsSpace(tag[0]) && !PyStr.IsSpace(tag[|tag| - 1])
    ensures FindContainerType(Text(lead + tag + trail)) == Success(tag)
  {
    PyStr.StripPadded(lead, tag, trail);
  }

  /** `Domain.__init__`: read the container tag, then build the runtime for
      it; an absent element or an unknown tag is a ConfigError. */
  function Construct(desc: Descriptor, factory: Factory, rtUuid: Option<string>): (r: Result<Domain, Error>)
    ensures desc.container.Absent? ==> r == Failure(ConfigError)
    ensures desc.container.NoText? ==> r == Failure(AttributeError)
    ensures desc.container.Text? ==>
              (r.Success? <==> factory(PyStr.Strip(desc.container.raw)).Some?)
    ensures desc.container.Text? && factory(PyStr.Strip(desc.container.raw)).None? ==>
              r == Failure(ConfigError)
    ensures r.Failure? ==> r.error == ConfigError || r.error == AttributeError
    ensures r.Success? ==>
              && r.value.xml == desc.xml && r.value.vmUuid == desc.uuid
              && r.value.backend == PyStr.Strip(desc.container.raw)
              && factory(r.value.backend) == Some(r.value.runtime)
              && r.value.rtUuid == rtUuid
  {
    var tag :- FindContainerType(desc.container);
    match factory(tag)
    case None => Failure(ConfigError)
    case Some(h) => Success(Domain(desc.xml, desc.uuid, tag, h, rtUuid))
  }

  // ----------------------------------------------------------- projections

  /** `VIR_DOMAIN_CONTROL_OK` and `VIR_DOMAIN_RUNNING` from libvirt. */
  const VirDomainControlOk: int := 0
  const VirDomainRunning: int := 1

  /** `UUIDString`: the canonical string form of the identifier; it reads
      back as that identifier. */
  function UUIDString(d: Domain): (s: string)
    ensures Uuids.Dashed(s)
    ensures Uuids.Parse(s) == Some(d.vmUuid)
  {
    Uuids.ParseFormat(d.vmUuid);
    Uuids.Format(d.vmUuid)
  }

  /** `ID`: the identifier as an integer below 2^128, the same number the
      UUID string spells out. */
  function ID(d: Domain): (n: nat)
    ensures n < Uuids.UuidBound
    ensures Uuids.Parse(UUIDString(d)) == Some(n)
  {
    d.vmUuid
  }

  /** Domains are registered under their UUID string, so two domains share
      a registry key only when they share an identifier. */
  lemma KeysIdentify(d: Domain, e: Domain)
    requires UUIDString(d) == UUIDString(e)
    ensures ID(d) == ID(e)
  {
    Uuids.FormatInjective(d.vmUuid, e.vmUuid);
  }

  /** `XMLDesc`: the descriptor text exactly as given; flags are ignored. */
  function XMLDesc(d: Domain, flags: int): string
  {
    d.xml
  }

  /** The descriptor a domain was built from is what `XMLDesc` returns, for
      every flags value. */
  lemma XMLDescEchoesDescriptor(desc: Descriptor, factory: Factory, rtUuid: Option<string>, flags: int)
    requires Construct(desc, factory, rtUuid).Success?
    ensures XMLDesc(Construct(desc, factory, rtUuid).value, flags) == desc.xml
  {
  }

  /** `controlInfo`: a fixed 3-tuple. */
  function ControlInfo(d: Domain): (info: (int, int, int))
    ensures info.0 == VirDomainControlOk
  {
    (VirDomainControlOk, 0, 0)
  }

  /** `info`: a fixed 5-element list, the state first. */
  function Info(d: Domain): (info: seq<int>)
    ensures |info| == 5 && info[0] == VirDomainRunning
  {
    [VirDomainRunning, 0, 0, 1, 0]
  }

  /** `vcpus`: two empty lists. */
  function Vcpus(d: Domain): (v: seq<seq<int>>)
    ensures |v| == 2 && v[0] == [] && v[1] == []
  {
    [[], []]
  }

  // ------------------------------------------------- unsupported operations

  /** The attributes normal lookup finds on a domain before falling back to
      `__getattr__`: what the class body defines, what a new-style class's
      dictionary holds, and the instance's fields. */
  const DomainAttributes: set<string> := {
    "__init__", "__getattr__", "__module__", "__doc__", "__dict__", "__weakref__",
    "create", "recover", "destroyFlags", "destroy", "reset", "runtimeUUIDString",
    "ID", "UUIDString", "XMLDesc", "controlInfo", "info", "vcpus",
    "_startup", "_resync", "_shutdown", "_fake_method",
    "_log", "_xmldesc", "_root", "_vm_uuid", "_rt", "_xml_file", "events"
  }

  /** The part of the libvirt domain API a domain implements. */
  const SupportedSurface: set<string> := {
    "create", "recover", "destroyFlags", "destroy", "reset",
    "ID", "UUIDString", "XMLDesc", "controlInfo", "info", "vcpus"
  }

  /** What attribute lookup on a domain produces. */
  datatype Attr = Defined(name: string) | FakeMethod

  /** `__getattr__`: any name normal lookup misses resolves to `_fake_method`. */
  function GetAttr(name: string): (a: Attr)
    ensures a == FakeMethod <==> name !in DomainAttributes
    ensures a.Defined? ==> a.name == name
  {
    if name in DomainAttributes then Defined(name) else FakeMethod
  }

  /** `_fake_method(self, *args)`: whatever the positional arguments, the
      generic libvirt error. It takes no keyword arguments, so a call
      passing any (named in `kwargs`) raises TypeError before its body
      runs. */
  function CallFakeMethod<A>(args: seq<A>, kwargs: seq<string>): (r: Result<(), Error>)
    ensures kwargs == [] ==> r == Failure(LibvirtError)
    ensures kwargs != [] ==> r == Failure(TypeError)
  {
    if kwargs != [] then Failure(TypeError) else Failure(LibvirtError)
  }

  /** An operation the domain does not define, such as `migrate`, called
      with positional arguments only, fails with the generic libvirt error. */
  lemma UnsupportedOperationFails<A>(name: string, args: seq<A>)
    requires name !in DomainAttributes
    ensures GetAttr(name) == FakeMethod
    ensures CallFakeMethod(args, []) == Failure(LibvirtError)
  {
  }

  /** No operation of the supported surface is ever replaced by the fake
      method. */
  lemma SupportedNeverFaked(name: string)
    requires name in SupportedSurface
    ensures GetAttr(name) == Defined(name)
  {
    assert SupportedSurface <= DomainAttributes;
  }

  lemma MigrateUnsupported()
    ensures GetAttr("migrate") == FakeMethod
  {
    assert "migrate" !in DomainAttributes by {
      assert "migrate"[0] == 'm';
    }
  }

  // ------------------------------------------------------ calls and trace

  /** The calls a lifecycle operation makes on the runtime (`Setup`,
      `Configure`, `Start`, `Stop`, `Teardown`, `Resync`) and on the XML
      cache (`ClearCache`, `Save`). */
  datatype Call = ClearCache | Setup | Configure(root: string) | Save(root: string)
                | Start | Stop | Teardown | Resync

  /** A call made on behalf of the domain registered under `target`. */
  datatype Request = Request(target: string, call: Call)

  /** A call in the trace, and whether it returned (true) or raised. */
  datatype Event = Event(req: Request, ok: bool)

  /** The error a call raises, given the trace so far; `None` when it
      returns. */
  type Oracle = (seq<Event>, Request) -> Option<Error>

  /** The registry and every call made so far. */
  datatype World = World(doms: map<string, Domain>, trace: seq<Event>)

  /** The world after an operation, and what the operation returned or
      raised. */
  datatype Step<T> = Step(world: World, result: Result<T, Error>)

  /** The registry key of a domain. */
  function Key(d: Domain): string
  {
    UUIDString(d)
  }

  function StartupCalls(d: Domain): seq<Call>
  {
    [ClearCache, Setup, Configure(d.xml), Save(d.xml), Start]
  }

  const ResyncCalls: seq<Call> := [Resync]
  const ShutdownCalls: seq<Call> := [Stop, Teardown, ClearCache]
  const ResetCalls: seq<Call> := [Stop, Start]

  /** The events of `calls` on behalf of `target`, all of them returning. */
  function Completed(target: string, calls: seq<Call>): (es: seq<Event>)
    ensures |es| == |calls|
    ensures forall i :: 0 <= i < |calls| ==> es[i] == Event(Request(target, calls[i]), true)
  {
    if calls == [] then [] else [Event(Request(target, calls[0]), true)] + Completed(target, calls[1..])
  }

  /** No call of the sequence raises when each is made after the ones
      before it returned. */
  predicate Succeeds(trace: seq<Event>, target: string, calls: seq<Call>, fails: Oracle)
  {
    forall i :: 0 <= i < |calls| ==>
      fails(trace + Completed(target, calls[..i]), Request(target, calls[i])).None?
  }

  /** The trace `after` extends `before` by requests that follow `calls`
      from its start, in order: the calls made are a prefix of `calls`. */
  predicate Follows(before: seq<Event>, after: seq<Event>, target: string, calls: seq<Call>)
  {
    && |before| <= |after| <= |before| + |calls|
    && after[..|before|] == before
    && forall i :: |before| <= i < |after| ==> after[i].req == Request(target, calls[i - |before|])
  }

  /** The outcome of running a call sequence: the trace afterwards, how many
      calls returned, and the error of the one that raised, if any. */
  datatype Run = Run(trace: seq<Event>, done: nat, error: Option<Error>)

  lemma CompletedPrefix(target: string, calls: seq<Call>, k: nat)
    requires calls != [] && k < |calls|
    ensures Completed(target, calls[..k + 1])
            == [Event(Request(target, calls[0]), true)] + Completed(target, calls[1..][..k])
  {
    assert calls[..k + 1][1..] == calls[1..][..k];
  }

  lemma {:induction false} SucceedsCons(trace: seq<Event>, target: string, calls: seq<Call>, fails: Oracle)
    requires calls != []
    ensures Succeeds(trace, target, calls, fails)
            <==> (fails(trace, Request(target, calls[0])).None?
                  && Succeeds(trace + [Event(Request(target, calls[0]), true)], target, calls[1..], fails))
  {
    var first := Event(Request(target, calls[0]), true);
    assert calls[..0] == [];
    assert trace + Completed(target, []) == trace;
    forall i | 0 <= i < |calls| - 1
      ensures trace + Completed(target, calls[..i + 1]) == (trace + [first]) + Completed(target, calls[1..][..i])
    {
      CompletedPrefix(target, calls, i);
    }
    if Succeeds(trace, target, calls, fails) {
      forall i | 0 <= i < |calls[1..]|
        ensures fails((trace + [first]) + Completed(target, calls[1..][..i]), Request(target, calls[1..][i])).None?
      {
        assert calls[1..][i] == calls[i + 1];
      }
    }
    if fails(trace, Request(target, calls[0])).None?
       && Succeeds(trace + [first], target, calls[1..], fails) {
      SucceedsConsBack(trace, target, calls, fails);
    }
  }

  /** The calls succeed when the first returns and the rest return after it. */
  lemma SucceedsConsBack(trace: seq<Event>, target: string, calls: seq<Call>, fails: Oracle)
    requires calls != [] && fails(trace, Request(target, calls[0])).None?
    requires Succeeds(trace + [Event(Request(target, calls[0]), true)], target, calls[1..], fails)
    ensures Succeeds(trace, target, calls, fails)
  {
    var first := Event(Request(target, calls[0]), true);
    forall i | 0 <= i < |calls|
      ensures fails(trace + Completed(target, calls[..i]), Request(target, calls[i])).None?
    {
      if i == 0 {
        assert calls[..0] == [];
        assert trace + Completed(target, calls[..0]) == trace;
      } else {
        ExtendFailedRun(trace, target, calls, first, i - 1);
        assert calls[1..][i - 1] == calls[i];
      }
    }
  }

  /** What a run of `calls` from `trace` has to be: the calls up to the
      first that raises, each recorded, and that call's error. */
  predicate Explains(r: Run, trace: seq<Event>, target: string, calls: seq<Call>, fails: Oracle)
  {
    && r.done <= |calls|
    && (r.error.None? <==> Succeeds(trace, target, calls, fails))
    && (r.error.None? ==> r.done == |calls| && r.trace == trace + Completed(target, calls))
    && (r.error.Some? ==>
          && r.done < |calls|
          && Succeeds(trace, target, calls[..r.done], fails)
          && r.trace == trace + Completed(target, calls[..r.done]) + [Event(Request(target, calls[r.done]), false)]
          && r.error == fails(trace + Completed(target, calls[..r.done]), Request(target, calls[r.done])))
  }

  /** A first call that returns, followed by a run of the rest, is a run of
      the whole sequence. */
  lemma ExtendRun(trace: seq<Event>, target: string, calls: seq<Call>, fails: Oracle, rest: Run)
    requires calls != [] && fails(trace, Request(target, calls[0])).None?
    requires Explains(rest, trace + [Event(Request(target, calls[0]), true)], target, calls[1..], fails)
    ensures Explains(Run(rest.trace, rest.done + 1, rest.error), trace, target, calls, fails)
  {
    if rest.error.Some? {
      ExtendRaisedRun(trace, target, calls, fails, rest);
    } else {
      ExtendReturnedRun(trace, target, calls, fails, rest.trace);
    }
  }

  lemma ExtendRaisedRun(trace: seq<Event>, target: string, calls: seq<Call>, fails: Oracle, rest: Run)
    requires calls != [] && fails(trace, Request(target, calls[0])).None?
    requires Explains(rest, trace + [Event(Request(target, calls[0]), true)], target, calls[1..], fails)
    requires rest.error.Some?
    ensures Explains(Run(rest.trace, rest.done + 1, rest.error), trace, target, calls, fails)
  {
    var first := Event(Request(target, calls[0]), true);
    SucceedsCons(trace, target, calls, fails);
    ExtendFailedRun(trace, target, calls, first, rest.done);
    SucceedsPrefixCons(trace, target, calls, fails, rest.done);
    assert calls[1..][rest.done] == calls[rest.done + 1];
  }

  lemma ExtendReturnedRun(trace: seq<Event>, target: string, calls: seq<Call>, fails: Oracle, restTrace: seq<Event>)
    requires calls != [] && fails(trace, Request(target, calls[0])).None?
    requires Succeeds(trace + [Event(Request(target, calls[0]), true)], target, calls[1..], fails)
    requires restTrace == (trace + [Event(Request(target, calls[0]), true)]) + Completed(target, calls[1..])
    ensures Succeeds(trace, target, calls, fails)
    ensures restTrace == trace + Completed(target, calls)
  {
    SucceedsConsBack(trace, target, calls, fails);
    CompletedCons(trace, target, calls);
  }

  lemma CompletedCons(trace: seq<Event>, target: string, calls: seq<Call>)
    requires calls != []
    ensures (trace + [Event(Request(target, calls[0]), true)]) + Completed(target, calls[1..])
            == trace + Completed(target, calls)
  {
    var first := Event(Request(target, calls[0]), true);
    var tail := Completed(target, calls[1..]);
    assert Completed(target, calls) == [first] + tail;
    assert (trace + [first]) + tail == trace + ([first] + tail);
  }


  lemma ExtendFailedRun(trace: seq<Event>, target: string, calls: seq<Call>, first: Event, k: nat)
    requires calls != [] && k < |calls| - 1 && first == Event(Request(target, calls[0]), true)
    ensures (trace + [first]) + Completed(target, calls[1..][..k]) == trace + Completed(target, calls[..k + 1])
  {
    CompletedPrefix(target, calls, k);
  }

  /** The calls of a prefix return when the first one does and the rest of
      the prefix returns after it. */
  lemma SucceedsPrefixCons(trace: seq<Event>, target: string, calls: seq<Call>, fails: Oracle, k: nat)
    requires k < |calls| && fails(trace, Request(target, calls[0])).None?
    requires Succeeds(trace + [Event(Request(target, calls[0]), true)], target, calls[1..][..k], fails)
    ensures Succeeds(trace, target, calls[..k + 1], fails)
  {
    assert calls[..k + 1][1..] == calls[1..][..k];
    SucceedsConsBack(trace, target, calls[..k + 1], fails);
  }

  /** A first call that raises is a run of the whole sequence on its own. */
  lemma FailFirst(trace: seq<Event>, target: string, calls: seq<Call>, fails: Oracle)
    requires calls != [] && fails(trace, Request(target, calls[0])).Some?
    ensures Explains(Run(trace + [Event(Request(target, calls[0]), false)], 0,
                         fails(trace, Request(target, calls[0]))), trace, target, calls, fails)
  {
    SucceedsCons(trace, target, calls, fails);
    assert calls[..0] == [];
    assert Succeeds(trace, target, calls[..0], fails);
    assert trace + Completed(target, calls[..0]) == trace;
  }

  /** Makes `calls` one after the other on behalf of `target`, recording
      each; the first that raises ends the sequence. */
  function RunCalls(trace: seq<Event>, target: string, calls: seq<Call>, fails: Oracle): (r: Run)
    ensures r.done <= |calls|
    ensures r.error.None? <==> Succeeds(trace, target, calls, fails)
    ensures r.error.None? ==> r.done == |calls| && r.trace == trace + Completed(target, calls)
    ensures r.error.Some? ==>
              && r.done < |calls|
              && Succeeds(trace, target, calls[..r.done], fails)
              && r.trace == trace + Completed(target, calls[..r.done]) + [Event(Request(target, calls[r.done]), false)]
              && r.error == fails(trace + Completed(target, calls[..r.done]), Request(target, calls[r.done]))
    decreases |calls|
  {
    if calls == [] then Run(trace, 0, None)
    else
      var req := Request(target, calls[0]);
      match fails(trace, req)
      case Some(e) =>
        FailFirst(trace, target, calls, fails);
        Run(trace + [Event(req, false)], 0, Some(e))
      case None =>
        var rest := RunCalls(trace + [Event(req, true)], target, calls[1..], fails);
        ExtendRun(trace, target, calls, fails, rest);
        Run(rest.trace, rest.done + 1, rest.error)
  }

  /** Every run makes a prefix of its calls, in order, and nothing else. */
  lemma RunFollows(trace: seq<Event>, target: string, calls: seq<Call>, fails: Oracle)
    ensures Follows(trace, RunCalls(trace, target, calls, fails).trace, target, calls)
  {
    var r := RunCalls(trace, target, calls, fails);
    if r.error.None? {
      FollowsByRequests(trace, Completed(target, calls), target, calls);
    } else {
      var k := r.done;
      var es := Completed(target, calls[..k]) + [Event(Request(target, calls[k]), false)];
      forall i | 0 <= i < |es|
        ensures es[i].req == Request(target, calls[i])
      {
        if i < k {
          assert es[i] == Completed(target, calls[..k])[i];
          assert calls[..k][i] == calls[i];
        } else {
          assert es[i] == Event(Request(target, calls[k]), false);
        }
      }
      assert r.trace == trace + es;
      FollowsByRequests(trace, es, target, calls);
    }
  }

  /** Appending events whose requests spell a prefix of `calls` follows
      `calls`. */
  lemma FollowsByRequests(trace: seq<Event>, es: seq<Event>, target: string, calls: seq<Call>)
    requires |es| <= |calls|
    requires forall i :: 0 <= i < |es| ==> es[i].req == Request(target, calls[i])
    ensures Follows(trace, trace + es, target, calls)
  {
    assert (trace + es)[..|trace|] == trace;
    forall i | |trace| <= i < |trace + es|
      ensures (trace + es)[i].req == Request(target, calls[i - |trace|])
    {
      assert (trace + es)[i] == es[i - |trace|];
    }
  }


  // ---------------------------------------------------------- operations

  /** `Domain.create`: build the domain, then clear the cache, set up,
      configure, save and start; only when all five return is the domain
      registered. Errors propagate unchanged. */
  function Create(w: World, desc: Descriptor, factory: Factory, fails: Oracle): (s: Step<Domain>)
    ensures Construct(desc, factory, None).Failure? ==> s == Step(w, Failure(Construct(desc, factory, None).error))
    ensures Construct(desc, factory, None).Success? ==>
              var d := Construct(desc, factory, None).value;
              && Follows(w.trace, s.world.trace, Key(d), StartupCalls(d))
              && |s.world.trace| > |w.trace|
              && (s.result.Success? <==> Succeeds(w.trace, Key(d), StartupCalls(d), fails))
              && s.world.trace == RunCalls(w.trace, Key(d), StartupCalls(d), fails).trace
              && (s.result.Failure? ==>
                    s.result.error == RunCalls(w.trace, Key(d), StartupCalls(d), fails).error.value)
    ensures s.result.Success? ==>
              && Construct(desc, factory, None) == Success(s.result.value)
              && s.world.doms == Doms.Add(w.doms, Key(s.result.value), s.result.value)
              && s.world.trace == w.trace + Completed(Key(s.result.value), StartupCalls(s.result.value))
    ensures s.result.Failure? ==> s.world.doms == w.doms
  {
    match Construct(desc, factory, None)
    case Failure(e) => Step(w, Failure(e))
    case Success(d) =>
      var run := RunCalls(w.trace, Key(d), StartupCalls(d), fails);
      RunFollows(w.trace, Key(d), StartupCalls(d), fails);
      if run.error.Some? then Step(World(w.doms, run.trace), Failure(run.error.value))
      else Step(World(Doms.Add(w.doms, Key(d), d), run.trace), Success(d))
  }

  /** `Domain.recover`: build the domain bound to an existing runtime
      identifier, then only resync; the domain is registered when the resync
      returns. No setup, configure, save or start is made. */
  function Recover(w: World, rtUuid: string, desc: Descriptor, factory: Factory, fails: Oracle): (s: Step<Domain>)
    ensures Construct(desc, factory, Some(rtUuid)).Failure? ==>
              s == Step(w, Failure(Construct(desc, factory, Some(rtUuid)).error))
    ensures Construct(desc, factory, Some(rtUuid)).Success? ==>
              var d := Construct(desc, factory, Some(rtUuid)).value;
              && Follows(w.trace, s.world.trace, Key(d), ResyncCalls)
              && s.world.trace == RunCalls(w.trace, Key(d), ResyncCalls, fails).trace
              && |s.world.trace| == |w.trace| + 1
              && (s.result.Success? <==> fails(w.trace, Request(Key(d), Resync)).None?)
              && (s.result.Failure? ==> s.result.error == fails(w.trace, Request(Key(d), Resync)).value)
    ensures s.result.Success? ==>
              && Construct(desc, factory, Some(rtUuid)) == Success(s.result.value)
              && s.result.value.rtUuid == Some(rtUuid)
              && s.world.doms == Doms.Add(w.doms, Key(s.result.value), s.result.value)
              && s.world.trace == w.trace + Completed(Key(s.result.value), ResyncCalls)
    ensures s.result.Failure? ==> s.world.doms == w.doms
  {
    match Construct(desc, factory, Some(rtUuid))
    case Failure(e) => Step(w, Failure(e))
    case Success(d) =>
      var run := RunCalls(w.trace, Key(d), ResyncCalls, fails);
      RunFollows(w.trace, Key(d), ResyncCalls, fails);
      assert ResyncCalls[..0] == [];
      if run.error.Some? then Step(World(w.doms, run.trace), Failure(run.error.value))
      else Step(World(Doms.Add(w.doms, Key(d), d), run.trace), Success(d))
  }

  /** The error `destroyFlags` lets through: OperationFailed and KeyError
      become the generic libvirt error, anything else propagates as is. */
  function Surfaced(e: Error): (r: Error)
    ensures r == LibvirtError <==> e in {OperationFailed, KeyError, LibvirtError}
    ensures r != LibvirtError ==> r == e
  {
    if e == OperationFailed || e == KeyError then LibvirtError else e
  }

  /** `destroyFlags`: stop, tear down and clear the cache, and only then
      remove the domain from the registry. A failing shutdown call leaves
      the registry alone; an unregistered domain fails after the whole
      shutdown has run. Flags are ignored. */
  function DestroyFlags(w: World, d: Domain, flags: int, fails: Oracle): (s: Step<()>)
    ensures Follows(w.trace, s.world.trace, Key(d), ShutdownCalls)
    ensures s.world.trace == RunCalls(w.trace, Key(d), ShutdownCalls, fails).trace
    ensures s.result.Success? <==> Succeeds(w.trace, Key(d), ShutdownCalls, fails) && Key(d) in w.doms
    ensures s.result.Success? ==> s.world.doms == w.doms - {Key(d)}
    ensures s.result.Failure? ==> s.world.doms == w.doms
    ensures Succeeds(w.trace, Key(d), ShutdownCalls, fails) ==>
              s.world.trace == w.trace + Completed(Key(d), ShutdownCalls)
    ensures Succeeds(w.trace, Key(d), ShutdownCalls, fails) && Key(d) !in w.doms ==>
              s.result == Failure(LibvirtError)
    ensures !Succeeds(w.trace, Key(d), ShutdownCalls, fails) ==>
              var run := RunCalls(w.trace, Key(d), ShutdownCalls, fails);
              s.result == Failure(Surfaced(run.error.value))
  {
    var key := Key(d);
    var run := RunCalls(w.trace, key, ShutdownCalls, fails);
    RunFollows(w.trace, key, ShutdownCalls, fails);
    var after := World(w.doms, run.trace);
    if run.error.Some? then Step(after, Failure(Surfaced(run.error.value)))
    else
      match Doms.Remove(w.doms, key)
      case Failure(e) => Step(after, Failure(Surfaced(e)))
      case Success(doms) => Step(World(doms, run.trace), Success(()))
  }

  /** `destroy`: `destroyFlags` with flags 0, which is the same as with any
      other flags. */
  function Destroy(w: World, d: Domain, fails: Oracle): (s: Step<()>)
    ensures forall f :: s == DestroyFlags(w, d, f, fails)
  {
    DestroyFlags(w, d, 0, fails)
  }

  /** `reset`: stop, then start, and nothing else; the registry is not
      touched, errors propagate unchanged and flags are ignored. */
  function Reset(w: World, d: Domain, flags: int, fails: Oracle): (s: Step<()>)
    ensures s.world.doms == w.doms
    ensures Follows(w.trace, s.world.trace, Key(d), ResetCalls)
    ensures s.world.trace == RunCalls(w.trace, Key(d), ResetCalls, fails).trace
    ensures s.result.Success? <==> Succeeds(w.trace, Key(d), ResetCalls, fails)
    ensures s.result.Success? ==> s.world.trace == w.trace + Completed(Key(d), ResetCalls)
    ensures s.result.Failure? ==> s.result.error == RunCalls(w.trace, Key(d), ResetCalls, fails).error.value
  {
    var run := RunCalls(w.trace, Key(d), ResetCalls, fails);
    RunFollows(w.trace, Key(d), ResetCalls, fails);
    Step(World(w.doms, run.trace), if run.error.None? then Success(()) else Failure(run.error.value))
  }

  // --------------------------------------------------------------- lemmas

  /** A stop that raises ends `destroyFlags`: teardown and the cache clear
      are never made, and the stop's error is surfaced. */
  lemma DestroyStopRaises(w: World, d: Domain, flags: int, fails: Oracle)
    requires fails(w.trace, Request(Key(d), Stop)).Some?
    ensures var s := DestroyFlags(w, d, flags, fails);
            && s.world.trace == w.trace + [Event(Request(Key(d), Stop), false)]
            && s.result == Failure(Surfaced(fails(w.trace, Request(Key(d), Stop)).value))
            && s.world.doms == w.doms
  {
  }

  /** A stop that raises ends `reset`: no start is made, and the stop's
      error propagates. */
  lemma ResetStopRaises(w: World, d: Domain, flags: int, fails: Oracle)
    requires fails(w.trace, Request(Key(d), Stop)).Some?
    ensures var s := Reset(w, d, flags, fails);
            && s.world.trace == w.trace + [Event(Request(Key(d), Stop), false)]
            && s.result == Failure(fails(w.trace, Request(Key(d), Stop)).value)
  {
  }

  /** `destroyFlags` and `reset` ignore their flags. */
  lemma FlagsIgnored(w: World, d: Domain, f: int, g: int, fails: Oracle)
    ensures DestroyFlags(w, d, f, fails) == DestroyFlags(w, d, g, fails)
    ensures Reset(w, d, f, fails) == Reset(w, d, g, fails)
    ensures XMLDesc(d, f) == XMLDesc(d, g)
  {
  }

  /** Every call of a run but the last one it made returned. */
  lemma RunPrefixOk(trace: seq<Event>, target: string, calls: seq<Call>, fails: Oracle, j: nat)
    requires |trace| + j + 1 < |RunCalls(trace, target, calls, fails).trace|
    ensures RunCalls(trace, target, calls, fails).trace[|trace| + j] == Event(Request(target, calls[j]), true)
  {
    var r := RunCalls(trace, target, calls, fails);
    if r.error.None? {
      assert r.trace[|trace| + j] == Completed(target, calls)[j];
    } else {
      assert r.trace[|trace| + j] == Completed(target, calls[..r.done])[j];
    }
  }

  /** Whether the last start or stop of `key`'s runtime that returned was a
      start: the runtime's cached running state. */
  function Commanded(trace: seq<Event>, key: string): bool
  {
    if trace == [] then false
    else
      var e := trace[|trace| - 1];
      if e.ok && e.req == Request(key, Start) then true
      else if e.ok && e.req == Request(key, Stop) then false
      else Commanded(trace[..|trace| - 1], key)
  }

  /** A completed start or reset sequence leaves the runtime started. */
  lemma CommandedAfterStart(before: seq<Event>, key: string, calls: seq<Call>)
    requires calls != [] && calls[|calls| - 1] == Start
    ensures Commanded(before + Completed(key, calls), key)
  {
    var t := before + Completed(key, calls);
    assert t[|t| - 1] == Completed(key, calls)[|calls| - 1];
  }

  /** A completed shutdown leaves the runtime stopped. */
  lemma CommandedAfterShutdown(before: seq<Event>, key: string)
    ensures !Commanded(before + Completed(key, ShutdownCalls), key)
  {
    var t := before + Completed(key, ShutdownCalls);
    var n := |before|;
    assert t[n + 2] == Event(Request(key, ClearCache), true);
    assert Commanded(t, key) == Commanded(t[..n + 2], key);
    assert t[..n + 2][n + 1] == Event(Request(key, Teardown), true);
    assert t[..n + 2][..n + 1] == t[..n + 1];
    assert Commanded(t[..n + 2], key) == Commanded(t[..n + 1], key);
    assert t[..n + 1][n] == Event(Request(key, Stop), true);
  }

  /** A successful create leaves the runtime started. */
  lemma CreateLeavesRunning(w: World, desc: Descriptor, factory: Factory, fails: Oracle)
    requires Create(w, desc, factory, fails).result.Success?
    ensures var c := Create(w, desc, factory, fails);
            Commanded(c.world.trace, Key(c.result.value))
  {
    var d := Create(w, desc, factory, fails).result.value;
    CommandedAfterStart(w.trace, Key(d), StartupCalls(d));
  }

  /** A successful reset leaves the runtime started. */
  lemma ResetLeavesRunning(w: World, d: Domain, flags: int, fails: Oracle)
    requires Reset(w, d, flags, fails).result.Success?
    ensures Commanded(Reset(w, d, flags, fails).world.trace, Key(d))
  {
    CommandedAfterStart(w.trace, Key(d), ResetCalls);
  }

  /** A successful destroy leaves the runtime stopped. */
  lemma DestroyLeavesStopped(w: World, d: Domain, flags: int, fails: Oracle)
    requires DestroyFlags(w, d, flags, fails).result.Success?
    ensures !Commanded(DestroyFlags(w, d, flags, fails).world.trace, Key(d))
  {
    CommandedAfterShutdown(w.trace, Key(d));
  }

  /** The startup sequence starts the runtime only after configuring it
      with the domain's descriptor, and that configure returned. */
  lemma StartupConfiguresBeforeStart(trace: seq<Event>, target: string, d: Domain, fails: Oracle, i: nat)
    requires |trace| <= i < |RunCalls(trace, target, StartupCalls(d), fails).trace|
    requires RunCalls(trace, target, StartupCalls(d), fails).trace[i].req.call == Start
    ensures var t := RunCalls(trace, target, StartupCalls(d), fails).trace;
            |trace| + 2 < i && t[|trace| + 2] == Event(Request(target, Configure(d.xml)), true)
  {
    var calls := StartupCalls(d);
    RunFollows(trace, target, calls, fails);
    assert calls[i - |trace|] == Start;
    StartupStartsLast(d, i - |trace|);
    RunPrefixOk(trace, target, calls, fails, 2);
  }

  /** The only start of the startup sequence is its last call. */
  lemma StartupStartsLast(d: Domain, k: nat)
    requires k < |StartupCalls(d)| && StartupCalls(d)[k] == Start
    ensures k == 4
  {
    var calls := StartupCalls(d);
    assert calls[0] == ClearCache && calls[1] == Setup && calls[2] == Configure(d.xml) && calls[3] == Save(d.xml);
  }

  /** Create never starts a runtime it has not configured: a start among
      the calls it makes comes after a configure with the descriptor, and
      that configure returned. */
  lemma CreateConfiguresBeforeStart(w: World, desc: Descriptor, factory: Factory, fails: Oracle, i: nat)
    requires Construct(desc, factory, None).Success?
    requires |w.trace| <= i < |Create(w, desc, factory, fails).world.trace|
    requires Create(w, desc, factory, fails).world.trace[i].req.call == Start
    ensures var d := Construct(desc, factory, None).value;
            var t := Create(w, desc, factory, fails).world.trace;
            |w.trace| + 2 < i && t[|w.trace| + 2] == Event(Request(Key(d), Configure(desc.xml)), true)
  {
    var d := Construct(desc, factory, None).value;
    StartupConfiguresBeforeStart(w.trace, Key(d), d, fails, i);
  }

  /** Reset makes no setup, configure, save, teardown or cache call: at most
      one stop followed by at most one start. */
  lemma ResetOnlyStopsAndStarts(w: World, d: Domain, flags: int, fails: Oracle, i: nat)
    requires |w.trace| <= i < |Reset(w, d, flags, fails).world.trace|
    ensures var c := Reset(w, d, flags, fails).world.trace[i].req.call;
            (i == |w.trace| ==> c == Stop) && (i > |w.trace| ==> c == Start)
  {
  }

  /** Destroying a domain that was never registered still runs the whole
      shutdown when its calls return, then fails with the generic error and
      leaves the registry as it was. */
  lemma DestroyUnregistered(w: World, d: Domain, fails: Oracle)
    requires Key(d) !in w.doms
    requires Succeeds(w.trace, Key(d), ShutdownCalls, fails)
    ensures var s := Destroy(w, d, fails);
            && s.result == Failure(LibvirtError)
            && s.world.doms == w.doms
            && s.world.trace == w.trace + Completed(Key(d), ShutdownCalls)
  {
  }

  /** A shutdown call raising OperationFailed or KeyError makes destroy fail
      with the generic error and leaves the registry unchanged; any other
      error comes through as it is. */
  lemma DestroyShutdownFails(w: World, d: Domain, fails: Oracle)
    requires !Succeeds(w.trace, Key(d), ShutdownCalls, fails)
    ensures var e := RunCalls(w.trace, Key(d), ShutdownCalls, fails).error.value;
            var s := Destroy(w, d, fails);
            && s.world.doms == w.doms
            && (e == OperationFailed || e == KeyError ==> s.result == Failure(LibvirtError))
            && (e != OperationFailed && e != KeyError ==> s.result == Failure(e))
  {
  }

  /** Destroy after create gives the registry back as it was before the
      create, when the domain was not registered before and every shutdown
      call returns. */
  lemma CreateThenDestroy(w: World, desc: Descriptor, factory: Factory, fails: Oracle)
    requires Create(w, desc, factory, fails).result.Success?
    requires Key(Create(w, desc, factory, fails).result.value) !in w.doms
    requires var c := Create(w, desc, factory, fails);
             Succeeds(c.world.trace, Key(c.result.value), ShutdownCalls, fails)
    ensures var c := Create(w, desc, factory, fails);
            var x := Destroy(c.world, c.result.value, fails);
            x.result.Success? && x.world.doms == w.doms
  {
    var c := Create(w, desc, factory, fails);
    var d := c.result.value;
    var key := Key(d);
    assert c.world.doms == Doms.Add(w.doms, key, d);
    Doms.RemoveUndoesAdd(w.doms, key, d);
    var x := DestroyFlags(c.world, d, 0, fails);
    assert x.world.doms == c.world.doms - {key};
  }

  /** The registration scenario: on an empty registry, a created domain is
      the only one listed, and after destroying it none is. */
  lemma RegistrationScenario(desc: Descriptor, factory: Factory, fails: Oracle)
    requires Create(World(map[], []), desc, factory, fails).result.Success?
    requires var c := Create(World(map[], []), desc, factory, fails);
             Succeeds(c.world.trace, Key(c.result.value), ShutdownCalls, fails)
    ensures var c := Create(World(map[], []), desc, factory, fails);
            var x := Destroy(c.world, c.result.value, fails);
            && Doms.GetAll(c.world.doms) == {c.result.value}
            && x.result.Success?
            && Doms.GetAll(x.world.doms) == {}
  {
    var w := World(map[], []);
    var c := Create(w, desc, factory, fails);
    Doms.GetAllSingleton(w.doms, Key(c.result.value), c.result.value);
    CreateThenDestroy(w, desc, factory, fails);
  }

  /** Recover neither starts nor stops the runtime: whether the last start
      or stop that returned was a start is the same after it as before, for
      every runtime. */
  lemma RecoverKeepsCommanded(w: World, rtUuid: string, desc: Descriptor, factory: Factory, fails: Oracle, key: string)
    ensures Commanded(Recover(w, rtUuid, desc, factory, fails).world.trace, key) == Commanded(w.trace, key)
  {
    var c := Construct(desc, factory, Some(rtUuid));
    if c.Success? {
      var t := Recover(w, rtUuid, desc, factory, fails).world.trace;
      assert Follows(w.trace, t, Key(c.value), ResyncCalls) && |t| == |w.trace| + 1;
      var e := t[|w.trace|];
      assert e.req.call == Resync;
      assert t == w.trace + [e];
      CommandedAfterOther(w.trace, e, key);
    }
  }

  /** An event that is neither a start nor a stop does not change the
      cached running state. */
  lemma CommandedAfterOther(before: seq<Event>, e: Event, key: string)
    requires e.req.call != Start && e.req.call != Stop
    ensures Commanded(before + [e], key) == Commanded(before, key)
  {
    assert (before + [e])[..|before|] == before;
  }

  /** Destroy after recover gives the registry back as it was before the
      recover, when the domain was not registered before and every shutdown
      call returns. */
  lemma RecoverThenDestroy(w: World, rtUuid: string, desc: Descriptor, factory: Factory, fails: Oracle)
    requires Recover(w, rtUuid, desc, factory, fails).result.Success?
    requires Key(Recover(w, rtUuid, desc, factory, fails).result.value) !in w.doms
    requires var c := Recover(w, rtUuid, desc, factory, fails);
             Succeeds(c.world.trace, Key(c.result.value), ShutdownCalls, fails)
    ensures var c := Recover(w, rtUuid, desc, factory, fails);
            var x := Destroy(c.world, c.result.value, fails);
            x.result.Success? && x.world.doms == w.doms
  {
    var c := Recover(w, rtUuid, desc, factory, fails);
    var d := c.result.value;
    var key := Key(d);
    assert c.world.doms == Doms.Add(w.doms, key, d);
    Doms.RemoveUndoesAdd(w.doms, key, d);
    var x := DestroyFlags(c.world, d, 0, fails);
    assert x.world.doms == c.world.doms - {key};
  }
}

=== FILE: doms.dfy ===
/** The process-wide registry of active domains (the `doms` module), as the
    domain layer uses it: entries keyed by the domain's UUID string, a
    `remove` that raises KeyError on an unknown key, and a snapshot of all
    registered values. */
module Doms {
  import opened Wrappers
  import opened Errors

  /** `doms.add`: register `v` under `key`; an earlier entry under the same
      key is replaced, every other entry is kept. */
  function Add<V>(reg: map<string, V>, key: string, v: V): (r: map<string, V>)
    ensures key in r && r[key] == v
    ensures r.Keys == reg.Keys + {key}
    ensures forall k :: k in reg && k != key ==> r[k] == reg[k]
  {
    reg[key := v]
  }

  /** `doms.remove`: drop the entry under `key`, or raise KeyError when
      there is none; every other entry is kept. */
  function Remove<V>(reg: map<string, V>, key: string): (r: Result<map<string, V>, Error>)
    ensures r.Failure? <==> key !in reg
    ensures r.Failure? ==> r.error == KeyError
    ensures r.Success? ==> r.value.Keys == reg.Keys - {key}
    ensures r.Success? ==> forall k :: k in r.value ==> r.value[k] == reg[k]
  {
    if key in reg then Success(reg - {key}) else Failure(KeyError)
  }

  /** `doms.get_all`: every registered value (the order is not modelled). */
  function GetAll<V(!new)>(reg: map<string, V>): (vs: set<V>)
    ensures forall k :: k in reg ==> reg[k] in vs
    ensures forall v :: v in vs <==> exists k :: k in reg && reg[k] == v
    ensures |vs| <= |reg|
  {
    reg.Values
  }

  /** Removing a freshly added key gives back the registry as it was. */
  lemma RemoveUndoesAdd<V>(reg: map<string, V>, key: string, v: V)
    requires key !in reg
    ensures Remove(Add(reg, key, v), key) == Success(reg)
  {
    assert Add(reg, key, v) - {key} == reg;
  }

  /** A registry holding one entry lists exactly that entry; an empty one
      lists nothing. */
  lemma GetAllSingleton<V(!new)>(empty: map<string, V>, key: string, v: V)
    requires empty == map[]
    ensures GetAll(Add(empty, key, v)) == {v}
    ensures GetAll(empty) == {}
  {
    assert Add(empty, key, v) == map[key := v];
    assert map[key := v].Values == {v};
  }
}

=== FILE: errors.dfy ===
/** The exceptions the modelled code raises, catches or lets through. */
module Errors {

  datatype Error =
    | ConfigError         // descriptor lacks the container metadata, or names no known backend
    | AttributeError      // the container element has no text, so `None.strip()` fails
    | ValueError          // a unit name whose extension is not `.service`
    | IndexError          // `line.split()[0]` on a line made of whitespace only
    | KeyError            // removing an identifier the registry does not hold
    | OperationFailed     // an external command exited with a nonzero status
    | CalledProcessError  // the unit listing command exited with a nonzero status
    | LibvirtError        // the single generic failure of the virtualization API
    | TypeError           // a call with keyword arguments the callee does not accept
    | Other(name: string) // anything else a collaborator may raise (OSError, ...)
}

=== FILE: numerals.dfy ===
/** Digit strings: Python's `'%i' % n` (decimal, leading `-` when negative)
    and `'%032x' % n` (fixed-width lower-case hexadecimal), each with the
    parser that inverts it. */
module Numerals {
  import opened Wrappers

  function Pow(base: nat, k: nat): (r: nat)
    ensures base >= 1 ==> r >= 1
  {
    if k == 0 then 1 else base * Pow(base, k - 1)
  }

  /** The lower-case digit for a value below 16. */
  function DigitChar(v: nat): char
    requires v < 16
  {
    if v < 10 then ('0' as int + v) as char else ('a' as int + v - 10) as char
  }

  /** The value of a lower-case hexadecimal digit; `None` for anything else. */
  function DigitValue(c: char): (r: Option<nat>)
    ensures r.Some? ==> r.value < 16 && DigitChar(r.value) == c
  {
    if '0' <= c <= '9' then Some(c as int - '0' as int)
    else if 'a' <= c <= 'f' then Some(c as int - 'a' as int + 10)
    else None
  }

  lemma DigitRoundTrip(v: nat)
    requires v < 16
    ensures DigitValue(DigitChar(v)) == Some(v)
  {
  }

  /** Every character of `s` is a digit of `base`. */
  predicate AllDigits(s: string, base: nat)
  {
    forall i :: 0 <= i < |s| ==> DigitValue(s[i]).Some? && DigitValue(s[i]).value < base
  }

  lemma AppendDigit(init: string, d: nat, base: nat)
    requires 2 <= base <= 16 && d < base
    requires AllDigits(init, base)
    ensures AllDigits(init + [DigitChar(d)], base)
  {
    DigitRoundTrip(d);
    var s := init + [DigitChar(d)];
    forall i | 0 <= i < |s|
      ensures DigitValue(s[i]).Some? && DigitValue(s[i]).value < base
    {
      if i < |init| {
        assert s[i] == init[i];
      }
    }
  }

  /** The `width` least significant digits of `n` in `base`, most significant
      first (zero-padded on the left). */
  function FixedDigits(n: nat, width: nat, base: nat): (s: string)
    requires 2 <= base <= 16
    ensures |s| == width
    ensures AllDigits(s, base)
  {
    if width == 0 then []
    else
      var d := n % base;
      var init := FixedDigits(n / base, width - 1, base);
      AppendDigit(init, d, base);
      init + [DigitChar(d)]
  }

  /** The value of a string of digits in `base`; the empty string reads as 0
      and any non-digit makes the whole string unreadable. */
  function ParseDigits(s: string, base: nat): Option<nat>
    requires 2 <= base <= 16
  {
    if s == [] then Some(0)
    else
      var d := DigitValue(s[|s| - 1]);
      if d.None? || d.value >= base then None
      else
        match ParseDigits(s[..|s| - 1], base)
        case None => None
        case Some(v) => Some(v * base + d.value)
  }

  lemma DivBelow(n: nat, base: nat, p: nat)
    requires base >= 1 && n < base * p
    ensures n / base < p
  {
  }

  /** Dropping the last digit of a number that fits `width` digits leaves one
      that fits `width - 1`. */
  lemma QuotientFits(n: nat, width: nat, base: nat)
    requires 2 <= base && 0 < width && n < Pow(base, width)
    ensures 0 <= n / base < Pow(base, width - 1)
  {
    DivBelow(n, base, Pow(base, width - 1));
  }

  /** Appending a digit multiplies the value read so far by the base. */
  lemma ParseDigitsSnoc(s: string, v: nat, d: nat, base: nat)
    requires 2 <= base <= 16 && d < base
    requires ParseDigits(s, base) == Some(v)
    ensures ParseDigits(s + [DigitChar(d)], base) == Some(v * base + d)
  {
    DigitRoundTrip(d);
    assert (s + [DigitChar(d)])[..|s|] == s;
  }

  lemma EuclidSplit(n: nat, base: nat)
    requires base >= 1
    ensures (n / base) * base + n % base == n
  {
  }

  /** Reading back a fixed-width rendering recovers the number, as long as
      it fits the width. */
  lemma {:induction false} ParseFixedDigits(n: nat, width: nat, base: nat)
    requires 2 <= base <= 16
    requires n < Pow(base, width)
    ensures ParseDigits(FixedDigits(n, width, base), base) == Some(n)
    decreases width
  {
    if width > 0 {
      QuotientFits(n, width, base);
      ParseFixedDigits(n / base, width - 1, base);
      ParseFixedDigitsStep(n, width, base);
    }
  }

  /** One step of that induction: if the leading digits read back as
      `n / base`, the whole rendering reads back as `n`. */
  lemma ParseFixedDigitsStep(n: nat, width: nat, base: nat)
    requires 2 <= base <= 16 && width > 0
    requires ParseDigits(FixedDigits(n / base, width - 1, base), base) == Some(n / base)
    ensures ParseDigits(FixedDigits(n, width, base), base) == Some(n)
  {
    var q, d := n / base, n % base;
    assert FixedDigits(n, width, base) == FixedDigits(q, width - 1, base) + [DigitChar(d)];
    ParseDigitsSnoc(FixedDigits(q, width - 1, base), q, d, base);
    EuclidSplit(n, base);
  }

  /** How many decimal digits `n` needs (at least one). */
  function DecimalWidth(n: nat): (w: nat)
    ensures w >= 1
  {
    if n < 10 then 1 else 1 + DecimalWidth(n / 10)
  }

  lemma {:induction false} DecimalWidthFits(n: nat)
    ensures n < Pow(10, DecimalWidth(n))
  {
    if n >= 10 {
      DecimalWidthFits(n / 10);
      assert n == 10 * (n / 10) + n % 10;
    }
  }

  /** The decimal digits of `n` carry no leading zero: they are `"0"` for
      zero and start with a non-zero digit otherwise. */
  lemma {:induction false} NoLeadingZero(n: nat)
    ensures var d := FixedDigits(n, DecimalWidth(n), 10);
            (n == 0 ==> d == "0") && (n > 0 ==> d[0] != '0')
    decreases n
  {
    if n >= 10 {
      NoLeadingZero(n / 10);
      var inner := FixedDigits(n / 10, DecimalWidth(n / 10), 10);
      assert FixedDigits(n, DecimalWidth(n), 10) == inner + [DigitChar(n % 10)];
    } else {
      assert FixedDigits(n, 1, 10) == FixedDigits(n / 10, 0, 10) + [DigitChar(n % 10)];
    }
  }

  /** Python's `'%i' % i`: an optional `-`, then decimal digits with no
      leading zero. */
  function IntToDecimal(i: int): (s: string)
    ensures s != []
    ensures i >= 0 <==> s[0] != '-'
    ensures var d := if i < 0 then s[1..] else s;
            && d != []
            && AllDigits(d, 10)
            && (d[0] == '0' ==> d == "0")
  {
    var n := if i < 0 then -i else i;
    NoLeadingZero(n);
    var d := FixedDigits(n, DecimalWidth(n), 10);
    assert DigitValue(d[0]).Some?;
    if i < 0 then
      assert ("-" + d)[1..] == d;
      "-" + d
    else d
  }

  /** Reads an optionally negated, non-empty decimal digit string. */
  function ParseInt(s: string): (r: Option<int>)
  {
    if s == [] then None
    else
      var negative := s[0] == '-';
      var digits := if negative then s[1..] else s;
      if digits == [] then None
      else
        match ParseDigits(digits, 10)
        case None => None
        case Some(v) => Some(if negative then 0 - v as int else v as int)
  }

  /** A digit string reads back with and without a leading `-`. */
  lemma ParseSigned(d: string, v: nat)
    requires d != [] && d[0] != '-' && ParseDigits(d, 10) == Some(v)
    ensures ParseInt(d) == Some(v as int)
    ensures ParseInt("-" + d) == Some(0 - v as int)
  {
    assert ("-" + d)[1..] == d;
  }

  /** `'%i'` loses nothing: the decimal text of an integer reads back as it. */
  lemma IntRoundTrip(i: int)
    ensures ParseInt(IntToDecimal(i)) == Some(i)
  {
    var n := if i < 0 then -i else i;
    var d := FixedDigits(n, DecimalWidth(n), 10);
    DecimalWidthFits(n);
    ParseFixedDigits(n, DecimalWidth(n), 10);
    assert DigitValue(d[0]).Some?;
    ParseSigned(d, n);
    assert IntToDecimal(i) == if i < 0 then "-" + d else d;
  }

  /** `'%0<width>x' % n` for a number that fits the width. */
  function HexFixed(n: nat, width: nat): (s: string)
    requires n < Pow(16, width)
    ensures |s| == width
    ensures ParseDigits(s, 16) == Some(n)
  {
    ParseFixedDigits(n, width, 16);
    FixedDigits(n, width, 16)
  }
}

=== FILE: pystr.dfy ===
/** The handful of Python string operations the unit-listing parser and the
    descriptor reader rely on, with Python 2 byte-string (`str`) semantics:
    `splitlines()`, `split()[0]`, `strip()`, `replace(pat, repl, 1)` and
    `os.path.splitext`. */
module PyStr {
  import opened Wrappers

  /** Whitespace as `str.isspace`, `str.split()` and `str.strip()` see it. */
  predicate IsSpace(c: char) {
    c == ' ' || c == '\t' || c == '\n' || c == '\r' || c as int == 0x0B || c as int == 0x0C
  }

  predicate AllSpace(s: string) {
    forall i :: 0 <= i < |s| ==> IsSpace(s[i])
  }

  predicate NoSpace(s: string) {
    forall i :: 0 <= i < |s| ==> !IsSpace(s[i])
  }

  /** Line boundaries as `str.splitlines` sees them (`\r\n` counts as one). */
  predicate IsLineBreak(c: char) {
    c == '\n' || c == '\r'
  }

  predicate NoLineBreak(s: string) {
    forall i :: 0 <= i < |s| ==> !IsLineBreak(s[i])
  }

  predicate StartsWith(s: string, prefix: string) {
    |prefix| <= |s| && s[..|prefix|] == prefix
  }

  predicate EndsWith(s: string, suffix: string) {
    |suffix| <= |s| && s[|s| - |suffix|..] == suffix
  }

  // ---------------------------------------------------------------- strip

  /** `s` without its leading whitespace. */
  function LStrip(s: string): (r: string)
    ensures |r| <= |s| && r == s[|s| - |r|..]
    ensures AllSpace(s[..|s| - |r|])
    ensures r == [] || !IsSpace(r[0])
  {
    if s != [] && IsSpace(s[0]) then LStrip(s[1..]) else s
  }

  /** `s` without its trailing whitespace. */
  function RStrip(s: string): (r: string)
    ensures |r| <= |s| && r == s[..|r|]
    ensures AllSpace(s[|r|..])
    ensures r == [] || !IsSpace(r[|r| - 1])
  {
    if s != [] && IsSpace(s[|s| - 1]) then RStrip(s[..|s| - 1]) else s
  }

  /** No whitespace at either end. */
  predicate Trimmed(t: string) {
    t == [] || (!IsSpace(t[0]) && !IsSpace(t[|t| - 1]))
  }

  /** Python's `s.strip()`. */
  function Strip(s: string): (r: string)
    ensures Trimmed(r)
    ensures AllSpace(s) <==> r == []
  {
    var l := LStrip(s);
    var r := RStrip(l);
    assert r == [] ==> s == s[..|s| - |l|] + l;
    r
  }

  lemma {:induction false} LStripPadded(pad: string, t: string)
    requires AllSpace(pad)
    requires t == [] || !IsSpace(t[0])
    ensures LStrip(pad + t) == t
    decreases |pad|
  {
    if pad == [] {
      assert pad + t == t;
    } else {
      assert (pad + t)[1..] == pad[1..] + t;
      LStripPadded(pad[1..], t);
    }
  }

  lemma {:induction false} RStripPadded(t: string, pad: string)
    requires AllSpace(pad)
    requires t == [] || !IsSpace(t[|t| - 1])
    ensures RStrip(t + pad) == t
    decreases |pad|
  {
    if pad == [] {
      assert t + pad == t;
    } else {
      assert (t + pad)[..|t + pad| - 1] == t + pad[..|pad| - 1];
      RStripPadded(t, pad[..|pad| - 1]);
    }
  }

  /** `strip()` recovers exactly the text between any whitespace padding:
      the padding is all it removes. */
  lemma StripPadded(lead: string, t: string, trail: string)
    requires AllSpace(lead) && AllSpace(trail)
    requires Trimmed(t)
    ensures Strip(lead + t + trail) == t
  {
    if t == [] {
      assert AllSpace(lead + t + trail);
    } else {
      assert lead + t + trail == lead + (t + trail);
      LStripPadded(lead, t + trail);
      RStripPadded(t, trail);
    }
  }

  // ----------------------------------------------------------- splitlines

  /** Length of the first line of `s`: the index of its first line break. */
  function LineEnd(s: string): (i: nat)
    ensures i <= |s|
    ensures i < |s| ==> IsLineBreak(s[i])
    ensures NoLineBreak(s[..i])
  {
    if s == [] || IsLineBreak(s[0]) then 0 else 1 + LineEnd(s[1..])
  }

  /** Python 2's `s.splitlines()`: a final line break does not start a new
      line, and an empty string has no lines. */
  function SplitLines(s: string): (lines: seq<string>)
    ensures forall k :: 0 <= k < |lines| ==> NoLineBreak(lines[k])
    ensures |lines| <= |s|
    decreases |s|
  {
    if s == [] then []
    else
      var i := LineEnd(s);
      if i == |s| then [s]
      else
        var next := if s[i] == '\r' && i + 1 < |s| && s[i + 1] == '\n' then i + 2 else i + 1;
        [s[..i]] + SplitLines(s[next..])
  }

  /** Lines written one after the other, each terminated by `\n`. */
  function JoinLines(lines: seq<string>): string
  {
    if lines == [] then [] else lines[0] + "\n" + JoinLines(lines[1..])
  }

  lemma {:induction false} LineEndBefore(a: string, b: string)
    requires NoLineBreak(a)
    requires b != [] && IsLineBreak(b[0])
    ensures LineEnd(a + b) == |a|
    decreases |a|
  {
    if a == [] {
      assert a + b == b;
    } else {
      assert (a + b)[0] == a[0] && !IsLineBreak(a[0]);
      assert (a + b)[1..] == a[1..] + b;
      NoLineBreakTail(a);
      LineEndBefore(a[1..], b);
      assert LineEnd(a + b) == 1 + LineEnd(a[1..] + b);
    }
  }

  lemma NoLineBreakTail(a: string)
    requires a != [] && NoLineBreak(a)
    ensures NoLineBreak(a[1..])
  {
    forall i | 0 <= i < |a| - 1
      ensures !IsLineBreak(a[1..][i])
    {
      assert a[1..][i] == a[i + 1];
    }
  }

  /** A line without breaks, then `\n`, splits off as the first line. */
  lemma SplitLinesStep(first: string, rest: string)
    requires NoLineBreak(first)
    ensures SplitLines(first + "\n" + rest) == [first] + SplitLines(rest)
  {
    var s := first + "\n" + rest;
    var i := |first|;
    assert s == first + ("\n" + rest);
    LineEndBefore(first, "\n" + rest);
    assert s[i] == '\n';
    assert s[..i] == first;
    assert s[i + 1..] == rest;
  }

  /** `splitlines` undoes `JoinLines` for lines without line breaks. */
  lemma {:induction false} SplitJoinLines(lines: seq<string>)
    requires forall k :: 0 <= k < |lines| ==> NoLineBreak(lines[k])
    ensures SplitLines(JoinLines(lines)) == lines
    decreases |lines|
  {
    if lines != [] {
      forall k | 0 <= k < |lines[1..]|
        ensures NoLineBreak(lines[1..][k])
      {
        assert lines[1..][k] == lines[k + 1];
      }
      SplitJoinLines(lines[1..]);
      SplitLinesStep(lines[0], JoinLines(lines[1..]));
      assert [lines[0]] + lines[1..] == lines;
    }
  }

  lemma NoLineBreakConcat(a: string, b: string)
    requires NoLineBreak(a) && NoLineBreak(b)
    ensures NoLineBreak(a + b)
  {
    assert forall i :: 0 <= i < |a + b| ==> (a + b)[i] == if i < |a| then a[i] else b[i - |a|];
  }

  /** An empty line followed by one terminated line splits into exactly
      those two lines. */
  lemma SplitAfterEmptyLine(line: string)
    requires NoLineBreak(line)
    ensures SplitLines("\n" + line + "\n") == ["", line]
  {
    assert SplitLines(line + "\n") == [line] by {
      SplitLinesStep(line, []);
      assert line + "\n" + [] == line + "\n";
      assert SplitLines([]) == [];
    }
    SplitLinesStep("", line + "\n");
    assert "" + "\n" + (line + "\n") == "\n" + line + "\n";
  }

  // ----------------------------------------------------------- split()[0]

  /** Length of the leading run of non-whitespace characters of `s`. */
  function TokenEnd(s: string): (i: nat)
    ensures i <= |s|
    ensures i < |s| ==> IsSpace(s[i])
    ensures NoSpace(s[..i])
  {
    if s == [] || IsSpace(s[0]) then 0 else 1 + TokenEnd(s[1..])
  }

  /** Python's `line.split()[0]`; `None` stands for the IndexError raised when
      the line holds no token at all. */
  function FirstToken(line: string): (t: Option<string>)
    ensures t.None? <==> AllSpace(line)
    ensures t.Some? ==> t.value != [] && NoSpace(t.value) && StartsWith(LStrip(line), t.value)
  {
    var rest := LStrip(line);
    if rest == [] then
      assert line == line[..|line| - |rest|];
      None
    else
      Some(rest[..TokenEnd(rest)])
  }

  lemma {:induction false} TokenEndBefore(t: string, rest: string)
    requires NoSpace(t)
    requires rest == [] || IsSpace(rest[0])
    ensures TokenEnd(t + rest) == |t|
    decreases |t|
  {
    if t == [] {
      assert t + rest == rest;
    } else {
      assert (t + rest)[1..] == t[1..] + rest;
      TokenEndBefore(t[1..], rest);
    }
  }

  /** The first token of a line is the maximal run of non-whitespace after
      the leading whitespace, whatever columns follow it. */
  lemma FirstTokenOf(lead: string, t: string, rest: string)
    requires AllSpace(lead)
    requires t != [] && NoSpace(t)
    requires rest == [] || IsSpace(rest[0])
    ensures FirstToken(lead + t + rest) == Some(t)
  {
    assert lead + t + rest == lead + (t + rest);
    LStripPadded(lead, t + rest);
    TokenEndBefore(t, rest);
    assert (t + rest)[..|t|] == t;
  }

  // ---------------------------------------------------- replace(pat, repl, 1)

  predicate OccursAt(s: string, pat: string, i: nat) {
    i + |pat| <= |s| && s[i..i + |pat|] == pat
  }

  /** Python's `s.find(pat, i)`, with `None` for -1. */
  function FindFrom(s: string, pat: string, i: nat): (r: Option<nat>)
    requires i <= |s|
    ensures r.Some? ==> i <= r.value && OccursAt(s, pat, r.value)
    ensures r.Some? ==> forall j :: i <= j < r.value ==> !OccursAt(s, pat, j)
    ensures r.None? ==> forall j :: i <= j <= |s| ==> !OccursAt(s, pat, j)
    decreases |s| - i
  {
    if OccursAt(s, pat, i) then Some(i)
    else if i == |s| then None
    else FindFrom(s, pat, i + 1)
  }

  /** Python's `s.replace(pat, repl, 1)`: only the first occurrence is replaced,
      wherever it is. */
  function ReplaceFirst(s: string, pat: string, repl: string): (r: string)
    ensures (forall j :: 0 <= j <= |s| ==> !OccursAt(s, pat, j)) ==> r == s
    ensures forall i :: 0 <= i <= |s| && OccursAt(s, pat, i) && (forall j :: 0 <= j < i ==> !OccursAt(s, pat, j)) ==>
              r == s[..i] + repl + s[i + |pat|..]
  {
    match FindFrom(s, pat, 0)
    case None => s
    case Some(i) => s[..i] + repl + s[i + |pat|..]
  }

  /** Deleting the first occurrence of a prefix recovers what follows it. */
  lemma ReplaceLeadingPrefix(prefix: string, t: string)
    ensures ReplaceFirst(prefix + t, prefix, "") == t
  {
    assert OccursAt(prefix + t, prefix, 0);
    assert (prefix + t)[|prefix|..] == t;
  }

  // ------------------------------------------------------------- splitext

  /** Python's `s.rfind(c)`: the last index holding `c`, or -1. */
  function RFind(s: string, c: char): (r: int)
    ensures -1 <= r < |s|
    ensures r >= 0 ==> s[r] == c
    ensures forall j :: r < j < |s| ==> s[j] != c
  {
    if s == [] then -1
    else if s[|s| - 1] == c then |s| - 1
    else RFind(s[..|s| - 1], c)
  }

  lemma {:induction false} RFindSkipsSuffix(a: string, b: string, c: char)
    requires c !in b
    ensures RFind(a + b, c) == RFind(a, c)
    decreases |b|
  {
    if b == [] {
      assert a + b == a;
    } else {
      assert (a + b)[..|a + b| - 1] == a + b[..|b| - 1];
      RFindSkipsSuffix(a, b[..|b| - 1], c);
    }
  }

  predicate AllDots(s: string) {
    forall i :: 0 <= i < |s| ==> s[i] == '.'
  }

  /** After the last `.` of `p` there is neither a `.` nor, when that dot
      follows the last `/`, a `/`. */
  lemma ExtensionTail(p: string, sep: int, dot: int)
    requires sep == RFind(p, '/') && dot == RFind(p, '.')
    requires 0 <= dot && sep < dot
    ensures p[dot] == '.' && '.' !in p[dot + 1..] && '/' !in p[dot..]
  {
    var ext := p[dot..];
    forall j | 0 <= j < |ext|
      ensures ext[j] == p[dot + j]
    {
    }
  }

  /** Python's `os.path.splitext` (posix): the extension starts at the last
      `.` of the final `/`-component, provided some character before it in
      that component is not a `.`; otherwise the extension is empty. */
  function Splitext(p: string): (r: (string, string))
    ensures r.0 + r.1 == p
    ensures r.1 == [] || (r.1[0] == '.' && '.' !in r.1[1..] && '/' !in r.1)
  {
    var sep := RFind(p, '/');
    var dot := RFind(p, '.');
    if dot > sep && !AllDots(p[sep + 1..dot]) then
      ExtensionTail(p, sep, dot);
      assert p[..dot] + p[dot..] == p;
      assert p[dot..][1..] == p[dot + 1..];
      (p[..dot], p[dot..])
    else
      assert p + [] == p;
      (p, [])
  }
}

=== FILE: runner.dfy ===
/** The service-manager plumbing of convirt/runner.py: a `Runner` that starts
    and stops one transient systemd unit and caches whether it last did so
    successfully, and the parser that turns `systemctl list-units` output
    into the VM identifiers embedded in unit names.

    Processes are never spawned here: an `Executor` says whether a command
    line exits with status 0, and a `Lister` gives the text a listing
    command prints. Executable lookup is replaced by the opaque paths of
    `Tools`. */
module Runner {
  import opened Wrappers
  import opened Errors
  import PyStr
  import Numerals

  const Prefix := "convirt-"
  const ServiceExt := ".service"

  /** The configuration fields the runner reads. */
  datatype Config = Config(cgroupSlice: string, uid: Option<int>, gid: Option<int>, useSudo: bool)

  /** Resolved paths of `sudo`, `systemctl` and `systemd-run`. */
  datatype Tools = Tools(sudo: string, systemctl: string, systemdRun: string)

  /** Runs a command line to completion: true iff it exits with status 0. */
  type Executor = seq<string> -> bool

  /** One named unit and the cached result of the last successful command. */
  datatype Runner = Runner(unitName: string, conf: Config, running: bool)

  /** What a start or stop did: the runner afterwards, the command line it
      handed to the executor, and the exception it raised, if any. */
  datatype Attempt = Attempt(after: Runner, issued: seq<string>, error: Option<Error>)

  /** A freshly constructed runner has not started anything. */
  function New(unitName: string, conf: Config): (r: Runner)
    ensures r.unitName == unitName && r.conf == conf
    ensures !r.running
  {
    Runner(unitName, conf, false)
  }

  // ------------------------------------------------------------------ call

  /** `sudo` in front of the command exactly when the configuration asks. */
  function SudoPrefix(conf: Config, tools: Tools): (p: seq<string>)
    ensures conf.useSudo ==> p == [tools.sudo]
    ensures !conf.useSudo ==> p == []
  {
    if conf.useSudo then [tools.sudo] else []
  }

  /** Runs `cmd` (behind `sudo` when configured); any nonzero exit is an
      OperationFailed, and nothing is retried. */
  function Call(conf: Config, tools: Tools, cmd: seq<string>, exec: Executor): (e: Option<Error>)
    ensures e.None? <==> exec(SudoPrefix(conf, tools) + cmd)
    ensures e.Some? ==> e.value == OperationFailed
  {
    if exec(SudoPrefix(conf, tools) + cmd) then None else Some(OperationFailed)
  }

  // ------------------------------------------------------------------ stop

  /** `systemctl stop <unit>`; on success the cached flag is false whatever
      it was, on failure the runner is unchanged. */
  function Stop(r: Runner, tools: Tools, exec: Executor): (a: Attempt)
    ensures a.issued == SudoPrefix(r.conf, tools) + [tools.systemctl, "stop", r.unitName]
    ensures a.error.None? <==> exec(a.issued)
    ensures a.error.None? ==> !a.after.running
    ensures a.error.Some? ==> a.error.value == OperationFailed && a.after == r
    ensures a.after.unitName == r.unitName && a.after.conf == r.conf
  {
    var cmd := [tools.systemctl, "stop", r.unitName];
    var line := SudoPrefix(r.conf, tools) + cmd;
    match Call(r.conf, tools, cmd, exec)
    case None => Attempt(r.(running := false), line, None)
    case Some(e) => Attempt(r, line, Some(e))
  }

  // ----------------------------------------------------------------- start

  const Accounting := [
    "--property=CPUAccounting=1",
    "--property=MemoryAccounting=1",
    "--property=BlockIOAccounting=1"
  ]

  /** The unit option, quotes included: no shell removes them. */
  function UnitOption(name: string): string
  {
    "--unit=\"" + name + "\""
  }

  function SliceOption(slice: string): string
  {
    "--slice=" + slice
  }

  /** `--uid=` only when a uid is configured, then `--gid=` only when a gid
      is, each rendered as Python's `'%i'` renders it. */
  function IdentityOptions(conf: Config): (opts: seq<string>)
    ensures |opts| == (if conf.uid.Some? then 1 else 0) + (if conf.gid.Some? then 1 else 0)
  {
    (if conf.uid.Some? then ["--uid=" + Numerals.IntToDecimal(conf.uid.value)] else [])
    + (if conf.gid.Some? then ["--gid=" + Numerals.IntToDecimal(conf.gid.value)] else [])
  }

  /** The `systemd-run` command line for a transient, accounted unit running
      `args`; the caller's arguments come last and in order. */
  function StartCommand(r: Runner, tools: Tools, args: seq<string>): (cmd: seq<string>)
    ensures |cmd| == 6 + |IdentityOptions(r.conf)| + |args|
    ensures cmd[0] == tools.systemdRun
    ensures cmd[1] == UnitOption(r.unitName) && cmd[2] == SliceOption(r.conf.cgroupSlice)
    ensures cmd[3..6] == Accounting
    ensures cmd[6..|cmd| - |args|] == IdentityOptions(r.conf)
    ensures cmd[|cmd| - |args|..] == args
    ensures cmd[6..] == IdentityOptions(r.conf) + args
  {
    var head := [tools.systemdRun, UnitOption(r.unitName), SliceOption(r.conf.cgroupSlice)] + Accounting;
    var ids := IdentityOptions(r.conf);
    var tail := ids + args;
    var cmd := head + tail;
    assert |head| == 6 && head[3..6] == Accounting;
    assert cmd[..6] == head && cmd[6..] == tail;
    assert cmd[3..6] == head[3..6];
    assert cmd[6..|cmd| - |args|] == tail[..|ids|] == ids;
    assert cmd[|cmd| - |args|..] == tail[|ids|..] == args;
    cmd
  }

  /** Starts the unit; on success the cached flag is true whatever it was,
      on failure the runner is unchanged. */
  function Start(r: Runner, tools: Tools, args: seq<string>, exec: Executor): (a: Attempt)
    ensures a.issued == SudoPrefix(r.conf, tools) + StartCommand(r, tools, args)
    ensures a.error.None? <==> exec(a.issued)
    ensures a.error.None? ==> a.after.running
    ensures a.error.Some? ==> a.error.value == OperationFailed && a.after == r
    ensures a.after.unitName == r.unitName && a.after.conf == r.conf
  {
    var cmd := StartCommand(r, tools, args);
    var line := SudoPrefix(r.conf, tools) + cmd;
    match Call(r.conf, tools, cmd, exec)
    case None => Attempt(r.(running := true), line, None)
    case Some(e) => Attempt(r, line, Some(e))
  }

  /** Resource statistics are not collected: always an empty list. */
  function Stats(): (s: seq<int>)
    ensures |s| == 0
  {
    []
  }

  /** Starting then stopping leaves a runner that is not running, and
      stopping then starting one that is, from any cached state. */
  lemma StartStopSettle(r: Runner, tools: Tools, args: seq<string>, exec: Executor)
    ensures var a := Start(r, tools, args, exec);
            a.error.None? ==> (Stop(a.after, tools, exec).error.None? ==> !Stop(a.after, tools, exec).after.running)
    ensures var b := Stop(r, tools, exec);
            b.error.None? ==> (Start(b.after, tools, args, exec).error.None? ==> Start(b.after, tools, args, exec).after.running)
    ensures Start(r, tools, args, exec).error.Some? ==> Start(r, tools, args, exec).after.running == r.running
  {
  }

  // ----------------------------------------------- reading a start command

  /** The inputs a `systemd-run` command line was built from. */
  datatype StartRequest = StartRequest(
    tool: string, unitName: string, slice: string,
    uid: Option<int>, gid: Option<int>, args: seq<string>)

  /** Takes an optional `<flag><int>` word off the front of `rest`; `None`
      when the flag is there but its number does not read. */
  function PeelOption(rest: seq<string>, flag: string): Option<(Option<int>, seq<string>)>
  {
    if rest != [] && PyStr.StartsWith(rest[0], flag) then
      match Numerals.ParseInt(rest[0][|flag|..])
      case None => None
      case Some(v) => Some((Some(v), rest[1..]))
    else Some((None, rest))
  }

  /** Reads back a command line of the shape `StartCommand` builds. */
  function ParseStart(cmd: seq<string>): Option<StartRequest>
  {
    if |cmd| < 6 then None
    else
      var unit := cmd[1];
      if !(PyStr.StartsWith(unit, "--unit=\"") && |unit| >= 9 && unit[|unit| - 1] == '"') then None
      else if !PyStr.StartsWith(cmd[2], "--slice=") || cmd[3..6] != Accounting then None
      else ParseIdentity(cmd[0], unit[8..|unit| - 1], cmd[2][8..], cmd[6..])
  }

  /** Reads the optional `--uid=` and `--gid=` words that follow the fixed
      options; what remains is the caller's arguments. */
  function ParseIdentity(tool: string, unitName: string, slice: string, rest: seq<string>): Option<StartRequest>
  {
    match PeelOption(rest, "--uid=")
    case None => None
    case Some((uid, afterUid)) =>
      match PeelOption(afterUid, "--gid=")
      case None => None
      case Some((gid, args)) => Some(StartRequest(tool, unitName, slice, uid, gid, args))
  }

  /** The caller's arguments do not themselves open with an identity option. */
  predicate PlainArgs(args: seq<string>) {
    args == [] || (!PyStr.StartsWith(args[0], "--uid=") && !PyStr.StartsWith(args[0], "--gid="))
  }

  lemma PeelPresent(flag: string, v: int, rest: seq<string>)
    requires |flag| == 6
    ensures PeelOption([flag + Numerals.IntToDecimal(v)] + rest, flag) == Some((Some(v), rest))
  {
    var w := flag + Numerals.IntToDecimal(v);
    assert w[..|flag|] == flag;
    assert w[|flag|..] == Numerals.IntToDecimal(v);
    Numerals.IntRoundTrip(v);
    assert ([w] + rest)[1..] == rest;
  }

  lemma PeelAbsent(flag: string, rest: seq<string>)
    requires rest == [] || !PyStr.StartsWith(rest[0], flag)
    ensures PeelOption(rest, flag) == Some((None, rest))
  {
  }

  /** The start command line determines everything it was built from: the
      unit name, slice, uid, gid and the caller's arguments, in order. */
  lemma StartCommandRoundTrip(r: Runner, tools: Tools, args: seq<string>)
    requires PlainArgs(args)
    ensures ParseStart(StartCommand(r, tools, args))
            == Some(StartRequest(tools.systemdRun, r.unitName, r.conf.cgroupSlice, r.conf.uid, r.conf.gid, args))
  {
    var cmd := StartCommand(r, tools, args);
    ParseStartHeader(cmd, r.unitName, r.conf.cgroupSlice);
    IdentityRoundTrip(tools.systemdRun, r.unitName, r.conf, args);
  }

  /** The fixed options of a start command read back as its unit name and
      slice; the rest is left to `ParseIdentity`. */
  lemma ParseStartHeader(cmd: seq<string>, unitName: string, slice: string)
    requires |cmd| >= 6 && cmd[1] == UnitOption(unitName) && cmd[2] == SliceOption(slice)
    requires cmd[3..6] == Accounting
    ensures ParseStart(cmd) == ParseIdentity(cmd[0], unitName, slice, cmd[6..])
  {
    var u := UnitOption(unitName);
    assert u[..8] == "--unit=\"" && u[8..|u| - 1] == unitName;
    assert SliceOption(slice)[..8] == "--slice=";
    assert SliceOption(slice)[8..] == slice;
  }

  lemma IdentityRoundTrip(tool: string, unitName: string, conf: Config, args: seq<string>)
    requires PlainArgs(args)
    ensures ParseIdentity(tool, unitName, conf.cgroupSlice, IdentityOptions(conf) + args)
            == Some(StartRequest(tool, unitName, conf.cgroupSlice, conf.uid, conf.gid, args))
  {
    PeelIdentity(conf, args);
  }

  /** The identity options, followed by plain arguments, peel off as the
      configured uid and gid and leave the arguments. */
  lemma PeelIdentity(conf: Config, args: seq<string>)
    requires PlainArgs(args)
    ensures var gidPart := if conf.gid.Some? then ["--gid=" + Numerals.IntToDecimal(conf.gid.value)] else [];
            && PeelOption(IdentityOptions(conf) + args, "--uid=") == Some((conf.uid, gidPart + args))
            && PeelOption(gidPart + args, "--gid=") == Some((conf.gid, args))
  {
    var gidPart := if conf.gid.Some? then ["--gid=" + Numerals.IntToDecimal(conf.gid.value)] else [];
    var afterUid := gidPart + args;
    if conf.uid.Some? {
      assert IdentityOptions(conf) + args == ["--uid=" + Numerals.IntToDecimal(conf.uid.value)] + afterUid;
      PeelPresent("--uid=", conf.uid.value, afterUid);
    } else {
      assert IdentityOptions(conf) + args == afterUid;
      if conf.gid.Some? {
        GidWordNotUid(conf.gid.value);
        assert afterUid[0] == "--gid=" + Numerals.IntToDecimal(conf.gid.value);
      }
      PeelAbsent("--uid=", afterUid);
    }
    if conf.gid.Some? {
      PeelPresent("--gid=", conf.gid.value, args);
    } else {
      assert afterUid == args;
      PeelAbsent("--gid=", args);
    }
  }

  lemma GidWordNotUid(v: int)
    ensures !PyStr.StartsWith("--gid=" + Numerals.IntToDecimal(v), "--uid=")
  {
    var w := "--gid=" + Numerals.IntToDecimal(v);
    assert w[..6] == "--gid=";
  }

  /** Without `PlainArgs` the command line is ambiguous: no uid and a
      command starting `--uid=0` give the same words as uid 0 and no
      command, because nothing separates systemd-run's options from the
      command it runs. */
  lemma StartCommandAmbiguous(tools: Tools)
    ensures var plain := Config("machine.slice", None, None, false);
            StartCommand(Runner("u", plain, false), tools, ["--uid=0"])
            == StartCommand(Runner("u", plain.(uid := Some(0)), false), tools, [])
  {
    var plain := Config("machine.slice", None, None, false);
    assert Numerals.IntToDecimal(0) == "0";
    assert "--uid=" + "0" == "--uid=0";
    assert IdentityOptions(plain.(uid := Some(0))) == ["--uid=0"];
    assert IdentityOptions(plain) == [];
  }

  // ---------------------------------------------------- unit name -> VM id

  /** Accepted unit names, stated without `splitext`: they end in `.service`
      and the last path component before that suffix is not made only of
      dots. No prefix is required. */
  predicate IsServiceUnit(unit: string) {
    && PyStr.EndsWith(unit, ServiceExt)
    && var stem := unit[..|unit| - |ServiceExt|];
       !PyStr.AllDots(stem[PyStr.RFind(stem, '/') + 1..])
  }

  lemma SplitServiceUnit(unit: string)
    requires PyStr.EndsWith(unit, ServiceExt)
    ensures var stem := unit[..|unit| - |ServiceExt|];
            && unit == stem + ServiceExt
            && PyStr.RFind(unit, '/') == PyStr.RFind(stem, '/')
            && PyStr.RFind(unit, '.') == |stem|
  {
    var stem := unit[..|unit| - |ServiceExt|];
    assert unit == stem + ServiceExt;
    PyStr.RFindSkipsSuffix(stem, ServiceExt, '/');
    assert unit == (stem + ".") + "service";
    PyStr.RFindSkipsSuffix(stem + ".", "service", '.');
  }

  /** `splitext` finds the extension `.service` exactly on service units. */
  lemma SplitextService(unit: string)
    ensures PyStr.Splitext(unit).1 == ServiceExt <==> IsServiceUnit(unit)
    ensures PyStr.Splitext(unit).1 == ServiceExt ==> PyStr.Splitext(unit).0 == unit[..|unit| - |ServiceExt|]
  {
    var (name, ext) := PyStr.Splitext(unit);
    if ext == ServiceExt {
      assert unit[|unit| - |ext|..] == ext;
    }
    if PyStr.EndsWith(unit, ServiceExt) {
      SplitServiceUnit(unit);
      var stem := unit[..|unit| - |ServiceExt|];
      var sep := PyStr.RFind(unit, '/');
      assert unit[sep + 1..|stem|] == stem[sep + 1..];
      assert unit[|stem|..] == ServiceExt;
    }
  }

  /** `_vm_uuid_from_unit`: split off the extension, demand `.service`, and
      delete the first `convirt-` wherever it occurs in what remains. A unit
      is accepted exactly when it is a service unit in the sense of
      `IsServiceUnit`; every other unit raises ValueError. */
  function VmUuidFromUnit(unit: string): (r: Result<string, Error>)
    ensures r.Success? <==> IsServiceUnit(unit)
    ensures r.Failure? ==> r.error == ValueError
  {
    var (name, ext) := PyStr.Splitext(unit);
    SplitextService(unit);
    if ext != ServiceExt then Failure(ValueError)
    else Success(PyStr.ReplaceFirst(name, Prefix, ""))
  }

  /** A service unit whose stem holds no `convirt-` yields its whole stem;
      the prefix is never checked. */
  lemma VmUuidOfStem(stem: string)
    requires '/' !in stem && stem != [] && stem[0] != '.'
    ensures VmUuidFromUnit(stem + ServiceExt)
            == Success(PyStr.ReplaceFirst(stem, Prefix, ""))
  {
    var unit := stem + ServiceExt;
    assert unit[..|unit| - |ServiceExt|] == stem;
    assert [] + stem == stem;
    PyStr.RFindSkipsSuffix([], stem, '/');
    assert !PyStr.AllDots(stem[0..]);
    SplitextService(unit);
  }

  /** The naming convention round-trips: the unit of a VM id yields that id. */
  lemma VmUuidRoundTrip(id: string)
    requires '/' !in id
    ensures VmUuidFromUnit(Prefix + id + ServiceExt) == Success(id)
  {
    var stem := Prefix + id;
    assert stem[0] == 'c';
    assert '/' !in Prefix;
    assert '/' !in stem by {
      assert forall c :: c in stem ==> c in Prefix || c in id;
    }
    VmUuidOfStem(stem);
    PyStr.ReplaceLeadingPrefix(Prefix, id);
  }

  /** A unit that does not end in `.service` is rejected. */
  lemma VmUuidRejectsOtherUnits(unit: string)
    requires !PyStr.EndsWith(unit, ServiceExt)
    ensures VmUuidFromUnit(unit) == Failure(ValueError)
  {
  }

  /** The prefix is not checked: a service without it yields its stem. */
  lemma VmUuidWithoutPrefix()
    ensures VmUuidFromUnit("foobar.service") == Success("foobar")
  {
    var stem := "foobar";
    assert stem + ServiceExt == "foobar.service";
    VmUuidOfStem(stem);
    assert forall j :: 0 <= j <= |stem| ==> !PyStr.OccursAt(stem, Prefix, j);
  }

  /** The first `convirt-` is deleted wherever it occurs in the stem, not
      only at its start. */
  lemma VmUuidPrefixInside()
    ensures VmUuidFromUnit("foo-convirt-x.service") == Success("foo-x")
  {
    var stem := "foo-convirt-x";
    assert stem + ServiceExt == "foo-convirt-x.service";
    VmUuidOfStem(stem);
    DeletePrefixInside();
  }

  lemma DeletePrefixInside()
    ensures PyStr.ReplaceFirst("foo-convirt-x", Prefix, "") == "foo-x"
  {
    var stem := "foo-convirt-x";
    assert stem[4..12] == Prefix;
    assert PyStr.OccursAt(stem, Prefix, 4);
    assert !PyStr.OccursAt(stem, Prefix, 0) by { assert stem[0] != Prefix[0]; }
    assert !PyStr.OccursAt(stem, Prefix, 1) by { assert stem[1] != Prefix[0]; }
    assert !PyStr.OccursAt(stem, Prefix, 2) by { assert stem[2] != Prefix[0]; }
    assert !PyStr.OccursAt(stem, Prefix, 3) by { assert stem[3] != Prefix[0]; }
    assert stem[..4] + "" + stem[12..] == "foo-x";
  }

  // ---------------------------------------------------- list-units output

  /** A non-empty line made only of whitespace: `line.split()[0]` raises. */
  predicate Blank(line: string) {
    line != [] && PyStr.AllSpace(line)
  }

  predicate NoBlankLine(lines: seq<string>) {
    forall i :: 0 <= i < |lines| ==> !Blank(lines[i])
  }

  /** What one line contributes: nothing (an empty line, or a first token
      that is not a service unit), one identifier, or an IndexError. */
  function LineId(line: string): (r: Result<Option<string>, Error>)
    ensures r.Failure? <==> Blank(line)
    ensures r.Failure? ==> r.error == IndexError
  {
    if line == [] then Success(None)
    else
      match PyStr.FirstToken(line)
      case None => Failure(IndexError)
      case Some(unit) =>
        match VmUuidFromUnit(unit)
        case Success(id) => Success(Some(id))
        case Failure(_) => Success(None)
  }

  /** What a generator consumer sees: the identifiers yielded, in order, and
      the exception that ended the iteration early, if any. */
  datatype Listing = Listing(ids: seq<string>, error: Option<Error>)

  /** `_parse_systemctl_list_units` over already split lines. */
  function ParseLines(lines: seq<string>): (r: Listing)
    ensures |r.ids| <= |lines|
    ensures r.error.None? <==> NoBlankLine(lines)
    ensures r.error.Some? ==> r.error.value == IndexError
  {
    if lines == [] then Listing([], None)
    else
      match LineId(lines[0])
      case Failure(e) => Listing([], Some(e))
      case Success(None) =>
        var rest := ParseLines(lines[1..]);
        assert forall i :: 1 <= i < |lines| ==> lines[i] == lines[1..][i - 1];
        rest
      case Success(Some(id)) =>
        var rest := ParseLines(lines[1..]);
        assert forall i :: 1 <= i < |lines| ==> lines[i] == lines[1..][i - 1];
        Listing([id] + rest.ids, rest.error)
  }

  /** `_parse_systemctl_list_units(output)`: the lines of the output, each
      handled as `ParseLines` says. */
  function ParseListUnits(output: string): (r: Listing)
    ensures |r.ids| <= |output|
    ensures r.error.None? <==> NoBlankLine(PyStr.SplitLines(output))
    ensures r.error.Some? ==> r.error.value == IndexError
  {
    ParseLines(PyStr.SplitLines(output))
  }

  /** Output made of `\n`-terminated lines is parsed line by line: the
      listing is the one of those very lines. */
  lemma ParseJoinedLines(lines: seq<string>)
    requires forall k :: 0 <= k < |lines| ==> PyStr.NoLineBreak(lines[k])
    ensures ParseListUnits(PyStr.JoinLines(lines)) == ParseLines(lines)
  {
    PyStr.SplitJoinLines(lines);
  }

  /** Lines are handled independently and in input order: the listing of
      two blocks of lines is the first block's identifiers followed by the
      second's, unless the first block raised. */
  lemma {:induction false} ParseLinesAppend(a: seq<string>, b: seq<string>)
    ensures ParseLines(a + b)
            == if ParseLines(a).error.Some? then ParseLines(a)
               else Listing(ParseLines(a).ids + ParseLines(b).ids, ParseLines(b).error)
    decreases |a|
  {
    if a == [] {
      assert a + b == b;
    } else {
      assert (a + b)[0] == a[0];
      assert (a + b)[1..] == a[1..] + b;
      ParseLinesAppend(a[1..], b);
      match LineId(a[0])
      case Failure(_) =>
      case Success(None) =>
      case Success(Some(id)) =>
        assert [id] + (ParseLines(a[1..]).ids + ParseLines(b).ids)
               == ([id] + ParseLines(a[1..]).ids) + ParseLines(b).ids;
    }
  }

  /** An empty line, or a line whose first token is not a service unit, is
      skipped without raising. */
  lemma LineSkipped(line: string)
    requires line == [] || (!Blank(line) && !IsServiceUnit(PyStr.FirstToken(line).value))
    ensures ParseLines([line]) == Listing([], None)
  {
  }

  /** Lines that are all empty or name units other than services, such as
      mounts, devices, sockets and slices, yield nothing and raise nothing. */
  lemma {:induction false} ParseOnlySkipped(lines: seq<string>)
    requires forall i :: 0 <= i < |lines| ==>
               lines[i] == [] || (!Blank(lines[i]) && !IsServiceUnit(PyStr.FirstToken(lines[i]).value))
    ensures ParseLines(lines) == Listing([], None)
    decreases |lines|
  {
    if lines != [] {
      assert forall i :: 1 <= i < |lines| ==> lines[1..][i - 1] == lines[i];
      ParseOnlySkipped(lines[1..]);
      LineSkipped(lines[0]);
    }
  }

  /** A line naming the unit of a VM id, after any indentation and followed
      by any columns, yields exactly that id. */
  lemma LineOfUnit(lead: string, id: string, columns: string)
    requires PyStr.AllSpace(lead)
    requires '/' !in id && PyStr.NoSpace(id)
    requires columns == [] || PyStr.IsSpace(columns[0])
    ensures ParseLines([lead + Prefix + id + ServiceExt + columns]) == Listing([id], None)
  {
    var unit := Prefix + id + ServiceExt;
    assert PyStr.NoSpace(unit);
    assert lead + unit + columns == lead + Prefix + id + ServiceExt + columns;
    PyStr.FirstTokenOf(lead, unit, columns);
    VmUuidRoundTrip(id);
  }

  /** A listing whose only entry is a prefix-less `foobar.service`, after
      an empty first line and followed by any columns, yields `foobar`. */
  lemma ParseForeignService(columns: string)
    requires PyStr.NoLineBreak(columns)
    requires columns == [] || PyStr.IsSpace(columns[0])
    ensures ParseListUnits("\n" + "foobar.service" + columns + "\n") == Listing(["foobar"], None)
  {
    var unit := "foobar.service";
    assert PyStr.NoLineBreak(unit) && PyStr.NoSpace(unit);
    PyStr.NoLineBreakConcat(unit, columns);
    OneLineAfterEmpty("\n" + "foobar.service" + columns + "\n", unit + columns);
    ForeignLine(columns);
  }

  lemma ForeignLine(columns: string)
    requires columns == [] || PyStr.IsSpace(columns[0])
    ensures ParseLines(["foobar.service" + columns]) == Listing(["foobar"], None)
  {
    var unit := "foobar.service";
    assert PyStr.NoSpace(unit);
    PyStr.FirstTokenOf([], unit, columns);
    assert [] + unit + columns == unit + columns;
    VmUuidWithoutPrefix();
  }

  /** Output holding an empty line and then one line parses as that line. */
  lemma OneLineAfterEmpty(output: string, line: string)
    requires PyStr.NoLineBreak(line) && output == "\n" + line + "\n"
    ensures ParseListUnits(output) == ParseLines([line])
  {
    PyStr.SplitAfterEmptyLine(line);
    ParseLinesAppend([[]], [line]);
    assert [[], line] == [[]] + [line];
  }

  /** Output made of an empty line only yields nothing. */
  lemma ParseEmptyOutput()
    ensures ParseListUnits("\n") == Listing([], None)
  {
    assert PyStr.SplitLines("\n") == [""];
  }

  // --------------------------------------------------------------- get_all

  /** Runs a listing command: its standard output, or `None` when it exits
      with a nonzero status. */
  type Lister = seq<string> -> Option<string>

  /** `systemctl list-units --no-pager --no-legend convirt-*`, never behind
      sudo. */
  function ListUnitsCommand(tools: Tools): (cmd: seq<string>)
    ensures |cmd| == 5 && cmd[0] == tools.systemctl && cmd[1] == "list-units"
    ensures cmd[2..4] == ["--no-pager", "--no-legend"]
    ensures cmd[4] == Prefix + "*"
  {
    [tools.systemctl, "list-units", "--no-pager", "--no-legend", Prefix + "*"]
  }

  /** `get_all`: the ids in the output of the listing command, or the
      CalledProcessError of a failed listing. */
  function GetAll(tools: Tools, list: Lister): (r: Listing)
    ensures list(ListUnitsCommand(tools)).None? ==> r == Listing([], Some(CalledProcessError))
    ensures list(ListUnitsCommand(tools)).Some? ==> r == ParseListUnits(list(ListUnitsCommand(tools)).value)
  {
    match list(ListUnitsCommand(tools))
    case None => Listing([], Some(CalledProcessError))
    case Some(output) => ParseListUnits(output)
  }

  /** Output listing one convirt unit, after an empty first line and with
      further columns on its line, yields that unit's VM id. */
  lemma ParseSingleService(id: string, columns: string)
    requires '/' !in id && PyStr.NoSpace(id) && PyStr.NoLineBreak(id)
    requires PyStr.NoLineBreak(columns) && (columns == [] || PyStr.IsSpace(columns[0]))
    ensures ParseListUnits("\n" + Prefix + id + ServiceExt + columns + "\n") == Listing([id], None)
  {
    var line := Prefix + id + ServiceExt + columns;
    UnitLineUnbroken(id, columns);
    OneLineAfterEmpty("\n" + Prefix + id + ServiceExt + columns + "\n", line);
    UnitLine(id, columns);
  }

  lemma UnitLine(id: string, columns: string)
    requires '/' !in id && PyStr.NoSpace(id)
    requires columns == [] || PyStr.IsSpace(columns[0])
    ensures ParseLines([Prefix + id + ServiceExt + columns]) == Listing([id], None)
  {
    var unit := Prefix + id + ServiceExt;
    assert PyStr.NoSpace(unit);
    PyStr.FirstTokenOf([], unit, columns);
    assert [] + unit + columns == Prefix + id + ServiceExt + columns;
    VmUuidRoundTrip(id);
  }

  lemma UnitLineUnbroken(id: string, columns: string)
    requires PyStr.NoLineBreak(id) && PyStr.NoLineBreak(columns)
    ensures PyStr.NoLineBreak(Prefix + id + ServiceExt + columns)
  {
    assert PyStr.NoLineBreak(Prefix) && PyStr.NoLineBreak(ServiceExt);
    PyStr.NoLineBreakConcat(Prefix, id);
    PyStr.NoLineBreakConcat(Prefix + id, ServiceExt);
    PyStr.NoLineBreakConcat(Prefix + id + ServiceExt, columns);
  }

  /** `get_all` yields the VM id of the one convirt unit the listing shows. */
  lemma GetAllSingleService(tools: Tools, list: Lister, id: string, columns: string)
    requires '/' !in id && PyStr.NoSpace(id) && PyStr.NoLineBreak(id)
    requires PyStr.NoLineBreak(columns) && (columns == [] || PyStr.IsSpace(columns[0]))
    requires list(ListUnitsCommand(tools)) == Some("\n" + Prefix + id + ServiceExt + columns + "\n")
    ensures GetAll(tools, list) == Listing([id], None)
  {
    ParseSingleService(id, columns);
  }
}

=== FILE: uuids.dfy ===
/** The 128-bit identifier of a domain and its canonical string form, as
    Python's `uuid.UUID` holds (`.int`) and prints (`str(...)`) it. */
module Uuids {
  import opened Wrappers
  import Numerals

  const UuidBound: nat := 0x1_0000_0000_0000_0000_0000_0000_0000_0000

  type Uuid = n: nat | n < UuidBound

  lemma MulAssoc(a: nat, b: nat, c: nat)
    ensures a * (b * c) == (a * b) * c
  {
  }

  lemma {:induction false} PowAdd(b: nat, i: nat, j: nat)
    ensures Numerals.Pow(b, i + j) == Numerals.Pow(b, i) * Numerals.Pow(b, j)
  {
    if i > 0 {
      PowAdd(b, i - 1, j);
      MulAssoc(b, Numerals.Pow(b, i - 1), Numerals.Pow(b, j));
    }
  }

  /** 32 hexadecimal digits are exactly 128 bits. */
  lemma ThirtyTwoHexDigits()
    ensures Numerals.Pow(16, 32) == UuidBound
  {
    assert Numerals.Pow(16, 1) == 16;
    PowAdd(16, 1, 1);
    assert Numerals.Pow(16, 2) == 0x100;
    PowAdd(16, 2, 2);
    assert Numerals.Pow(16, 4) == 0x1_0000;
    PowAdd(16, 4, 4);
    assert Numerals.Pow(16, 8) == 0x1_0000_0000;
    PowAdd(16, 8, 8);
    assert Numerals.Pow(16, 16) == 0x1_0000_0000_0000_0000;
    PowAdd(16, 16, 16);
  }

  predicate Dashed(s: string) {
    |s| == 36 && s[8] == '-' && s[13] == '-' && s[18] == '-' && s[23] == '-'
  }

  /** The 32 digits of a dashed string, the dashes removed. */
  function Undash(s: string): (h: string)
    requires Dashed(s)
    ensures |h| == 32
  {
    s[..8] + s[9..13] + s[14..18] + s[19..23] + s[24..]
  }

  /** `str(uuid.UUID(int=u))`: `'%032x' % u` cut into groups of 8-4-4-4-12
      hexadecimal digits joined by `-`. */
  function Format(u: Uuid): (s: string)
    ensures Dashed(s)
    ensures Numerals.ParseDigits(Undash(s), 16) == Some(u as nat)
  {
    ThirtyTwoHexDigits();
    var h := Numerals.HexFixed(u, 32);
    var s := h[..8] + "-" + h[8..12] + "-" + h[12..16] + "-" + h[16..20] + "-" + h[20..];
    assert s[..8] == h[..8] && s[9..13] == h[8..12] && s[14..18] == h[12..16];
    assert s[19..23] == h[16..20] && s[24..] == h[20..];
    assert h == h[..8] + h[8..12] + h[12..16] + h[16..20] + h[20..];
    s
  }

  /** Reads the canonical dashed form back; `None` for anything else. */
  function Parse(s: string): Option<Uuid>
  {
    if !Dashed(s) then None
    else
      match Numerals.ParseDigits(Undash(s), 16)
      case None => None
      case Some(v) => if v < UuidBound then Some(v) else None
  }

  /** The string form loses nothing: it reads back as the same identifier. */
  lemma ParseFormat(u: Uuid)
    ensures Parse(Format(u)) == Some(u)
  {
  }

  /** Distinct identifiers print differently, so the string form can key the
      registry. */
  lemma FormatInjective(u: Uuid, v: Uuid)
    requires Format(u) == Format(v)
    ensures u == v
  {
    ParseFormat(u);
    ParseFormat(v);
  }
}

=== FILE: wrappers.dfy ===
/** How the model spells Python's `None` and its exceptions: an `Option`
    for a value that may be absent, a `Result` for a call that returns or
    raises. Both support Dafny's `:-` so that an exception propagates to
    the caller as it does in Python. */
module Wrappers {

  /** A value that may be missing (Python's `None`). */
  datatype Option<+T> = None | Some(value: T) {

    predicate IsFailure() {
      None?
    }

    function PropagateFailure<U>(): Option<U>
      requires None?
    {
      None
    }

    function Extract(): T
      requires Some?
    {
      value
    }
  }

  /** The outcome of a call that either returns a value or raises `error`. */
  datatype Result<+R, +E> = Success(value: R) | Failure(error: E) {

    predicate IsFailure() {
      Failure?
    }

    function PropagateFailure<U>(): Result<U, E>
      requires Failure?
    {
      Failure(error)
    }

    function Extract(): R
      requires Success?
    {
      value
    }
  }
}
